=== FILE: README.md ===
# AITUwka 2.0 server core, modelled in Dafny

AITUwka 2.0 is a small blogging service: users register and log in, and then write posts and
comment on them. An Express server sits over MongoDB, with bcrypt for password hashes and JSON
Web Tokens for sessions. This project models the server's request-handling logic as pure
transitions over an immutable store, and proves what each handler promises:

- which status each handler answers with, and in what order it makes its checks (404, 400, 403);
- that a refused request leaves the store as it was;
- that a successful request changes exactly one record, and which fields of it;
- the Bearer-header gate, with 401 for a missing or malformed header and 403 for a token that
  does not verify;
- the registration, login and profile decisions;
- the string validators of the Joi schemas.

## Layout

| file | module | contents |
|---|---|---|
| wrappers.dfy | Wrappers | `Option` |
| text.dfy | Text | ASCII case mapping and JavaScript's `String.prototype.trim` |
| listing.dfy | Listing | the ids of a map in ascending order (the order the model fixes for reads without `sort`), and a stable insertion sort |
| validation.dfy | Validation | request bodies and the Joi schemas of validations/schemas.js and server.js |
| model.dfy | Model | users, posts and comments; the store and its invariant `Valid`; `findOne`; the outside libraries; reply shapes and messages |
| access.dfy | Access | who may change a post, a comment or a profile |
| gate.dfy | Gate | the `authMiddleware` of middlewares/authMiddleware.js and server.js |
| auth.dfy, auth_laws.dfy | Auth, AuthLaws | register, login, profile, and how they fit together |
| users.dfy, user_laws.dfy | Users, UserLaws | profile update, the user listing, and how an update shows in profile and login |
| posts.dfy, post_laws.dfy | Posts, PostLaws | the post handlers and their laws |
| comments.dfy, comment_laws.dfy | Comments, CommentLaws | the comment handlers and their laws |
| api.dfy, api_laws.dfy | Api, ApiLaws | the fourteen routes, with the gate in front of the ones that need it, and which handler each route runs |

How the model works:

- The store holds maps from ids to users, posts and comments, plus a counter that hands out
  fresh ids.
- MongoDB promises no order for `findOne` and `find` without `sort`. The model fixes one:
  ascending id. Where the program leaves the order open, the model's answer is one of the
  answers the program may give.
- `Model.Valid` is the invariant of every reachable store. Every id is below the counter. Every
  record satisfies what the schema setters and required validators of server.js:23-47 guarantee.
  No two users share a username or an email, because of the unique indexes. Every handler
  requires `Valid` and preserves it.
- bcrypt, jsonwebtoken and Joi's two built-in email rules are function-valued fields of
  `Model.Libs`. The email rules are `Validation.EmailRules`: `listedTld` is `.email()`, which
  also checks the top-level domain against Joi's list, and `anyTld` is
  `.email({ tlds: { allow: false } })`. `Model.Coherent` states the only facts the proofs use
  about the libraries: a hash passes `compare` with its own password, `verify` gives back what
  `sign` signed, and a signed token contains no space.
- The salt and the clock are parameters of the handlers that use them.
- A request body is a map from keys to strings.
- `server.js` repeats every controller inline. The two copies behave the same in everything
  modelled here except their Joi schemas. The register schemas differ in the username, the
  email and the password rules; the login schemas differ in the email rule. A
  `Validation.Schemas` value selects either the schemas of validations/schemas.js
  (`FileSchemas`) or those of server.js:51-60 (`InlineSchemas`), and each copy checks emails
  with its own rule.

The browser page and the server disagree about deleting comments. The page shows the
"Delete Comment" button to an admin and to the owner of the post (public/post.js:252). Both
copies of the server allow only an admin or the comment's own author
(controllers/commentController.js:67, server.js:381), so a post owner who presses the button
on someone else's comment gets 403. `Comments.DeleteComment` models the server's rule, and
`CommentLaws.PostOwnerCannotDeleteOthersComment` states the consequence.

## Model

| member | source | states |
|---|---|---|
| Model.NormalizeEmail | server.js:25 | the stored email is the given one lower-cased with only surrounding white space cut, so it has no upper-case letter and no white space at either end; an email already in that form is stored as given |
| Model.NormalizeUsername | server.js:24 | the stored username is the given one with only surrounding white space cut, and a trimmed username is stored as given |
| Model.NormalizeEmailIdempotent | server.js:25 | applying the email setters twice gives the same result as applying them once |
| Model.Valid | server.js:23-47 | every reachable store: ids below the counter, every user, post and comment as the schema setters and required validators leave it, and no two users with the same username or email (the unique indexes) |
| Model.EmptyStore | server.js:23-47 | the empty database satisfies the store invariant |
| Model.FindUser | controllers/authController.js:11-13 | `findOne` returns the first matching user in the model's ascending-id order, and nothing exactly when no user matches |
| Model.CardOf | controllers/postController.js:25 | `populate('owner', 'username email')` gives the owner's id, username and email, or null when the owner is missing |
| Text.Trim | server.js:24-25 | trimming cuts only white space and line terminators at both ends, and its result has none left there |
| Text.TrimIdempotent | server.js:24-25 | trimming twice is trimming once |
| Text.LowerHasNoUpper | server.js:25 | lower-casing leaves no upper-case letter |
| Listing.Sort | controllers/postController.js:26 | sorting yields a permutation of its input ordered by the key |
| Listing.RearrangedViews | controllers/postController.js:26 | sorting the views of records read in ascending id order keeps every view, adds none and repeats no id |
| Listing.IdsWhere | controllers/commentController.js:28 | the ids whose record passes the filter, each once, in ascending order |
| Validation.CheckUsername | validations/schemas.js:4-9 | accepts exactly the usernames of 3 to 16 ASCII letters |
| Validation.EmailPatternDecidesShape | validations/schemas.js:10-14 | the scan accepts exactly the strings of the form local-part, `@`, domain, `.`, tail with the regex's character classes |
| Validation.CheckPassword | validations/schemas.js:15-19 | accepts exactly the passwords of six or more characters with a lower-case letter, an upper-case letter, a digit and one of `!@#$%^&*` |
| Validation.StrictRegisterOk | validations/schemas.js:3-20 | the register schema of the file: no keys but username, email and password; a username of 3 to 16 ASCII letters; an email that passes the any-domain rule and the explicit regex; a strong password |
| Validation.LooseRegisterOk | server.js:51-55 | the inline register schema: no other keys; a username of 3 to 30 characters; an email the listed-domain rule accepts; a password of six or more characters |
| Validation.LoginOk | validations/schemas.js:22-27 | no keys but email and password; an email the copy's own rule accepts (the any-domain rule in the file, the listed-domain rule at server.js:57-60); a password of six or more characters |
| Validation.PostOk | validations/schemas.js:29-32 | no keys but title and content, both present and non-empty |
| Validation.CommentOk | validations/schemas.js:34-36 | no key but text, which is present and non-empty |
| Validation.StrictRegisterWithinLoose | server.js:51-55 | a body the strict register schema accepts is accepted by the inline schema too, provided the listed-domain rule accepts its email |
| Validation.UnlistedDomainSplitsSchemas | server.js:53 | when the two email rules disagree on `a@b.qqq`, a body with that email passes the strict schema and fails the inline one |
| Validation.LooseRegisterAdmitsMore | server.js:52 | for any listed-domain rule that accepts `a@b.com`, the inline schema accepts a body with a digit in the username and a weak password, which the strict schema refuses |
| Validation.StrongPasswordLogsIn | validations/schemas.js:22-27 | a body that passes the strict register schema, cut down to email and password, passes the login schema of the same file |
| Gate.Split | middlewares/authMiddleware.js:8 | splitting on a separator gives pieces without it, which join back to the input |
| Gate.SplitAfterWord | middlewares/authMiddleware.js:8 | a word followed by the separator is the first piece of the split |
| Gate.TokenOf | middlewares/authMiddleware.js:8 | the token is the run of non-space characters right after `"Bearer "` |
| Gate.Authenticate | middlewares/authMiddleware.js:3-17 | 401 exactly when the header is missing or lacks the case-sensitive `"Bearer "` prefix; otherwise 403 when the token does not verify; otherwise the verified payload becomes the requester |
| Gate.MalformedHeaderSkipsVerify | middlewares/authMiddleware.js:5-10 | a malformed header gets 401 whatever the verifier would say |
| Gate.SchemeIsCaseSensitive | middlewares/authMiddleware.js:5 | `"bearer "` in lower case is refused with 401 |
| Gate.SignedTokenAdmits | middlewares/authMiddleware.js:8-12 | `"Bearer "` followed by a signed token admits exactly the signed principal |
| Access.MayChangePost | controllers/postController.js:60 | an admin, or the user who owns the post, may change it |
| Access.MayChangeComment | controllers/commentController.js:48 | an admin, or the user recorded as the comment's owner, may change it; nobody else may change an ownerless comment |
| Access.MayEditProfile | controllers/userController.js:6 | a user may edit their own profile, and an admin may edit any profile |
| Access.OwnerlessCommentIsAdminOnly | controllers/commentController.js:48 | a comment without an owner may be changed by admins and by nobody else |
| Access.PostOwnershipGrantsNoCommentRights | controllers/commentController.js:67 | a plain user who owns a post still has no right over another user's comment |
| Auth.Register | controllers/authController.js:6-32 | 400 for a bad body; 400 when the normalized username or email is taken; 500 when the setters leave either empty; otherwise a new user with role `user`, the hashed password and a fresh id, and a 201 reply without the password |
| Auth.AdmitKeepsValid | server.js:23-28 | a well-formed newcomer who takes no one's username or email can be stored under the next id and the store stays valid |
| Auth.Login | controllers/authController.js:34-56 | 400 for a bad body; the same 400 message for an unknown email and for a wrong password (each stated on its own); otherwise a token signed over the stored id and role, with both echoed; the verdict for an existing email depends only on the password check |
| Auth.GetProfile | controllers/authController.js:58-67 | 404 exactly when the requester has no user; otherwise 200 with their id, username, email and role |
| AuthLaws.RegisterBodyLogsIn | server.js:51-60 | a body accepted by either copy's register schema, cut down to email and password, passes the same copy's login schema, since both check the email with the same rule |
| AuthLaws.LoginFailuresLookAlike | controllers/authController.js:39-44 | an unknown email and a wrong password get the identical reply |
| AuthLaws.RightCredentialsLogIn | controllers/authController.js:39-51 | the holder of the email with a password the hash accepts logs in as themselves, with their stored role |
| AuthLaws.RegisterThenLogin | controllers/authController.js:11-51 | a registration that passes the schema, takes no one's username or email and normalizes to non-empty values answers 201 with the next id; if the hash accepts the password it was made from, logging in afterwards with the same email and password yields that id and role `user` |
| AuthLaws.NewcomerLogsIn | controllers/authController.js:18-51 | a stored newcomer logs in with the email and password of their registration body |
| AuthLaws.LoginTokenOpensGate | controllers/authController.js:46-51 | the token a login hands out passes the gate as exactly the logged-in user and role |
| Users.Amend | controllers/userController.js:10-16 | the role is kept; a supplied username or email replaces the old one after the setters; a supplied password replaces the hash with a hash of it; anything not supplied is kept |
| Users.UpdateUser | controllers/userController.js:4-32 | 403 before the existence check unless self or admin; 404 for an unknown user; 500 when the unique index refuses; otherwise only the truthy username, email and password change (normalized, the password hashed), the role never changes, and the reply carries no password |
| Users.AmendKeepsDoc | server.js:24-25 | a user changed through the setters still satisfies the user schema |
| Users.ReplaceKeepsValid | server.js:24-25 | replacing a user by a well-formed one that collides with nobody keeps the store valid |
| Users.GetAllUsers | controllers/userController.js:34-42 | every user exactly once, in the model's ascending-id order, as id, username, email and role |
| UserLaws.UpdatedProfileShows | controllers/userController.js:19-27 | after a successful profile update, the user's own profile shows exactly the account the update answered with |
| UserLaws.ShortPasswordLocksOut | controllers/userController.js:14-16 | a password of one to five characters set through the profile is hashed and stored, and every login with it is refused by the login schema |
| UserLaws.ChangedPasswordLogsIn | controllers/userController.js:14-19 | a password changed through the profile logs in with the account's email after the update, as the same id and the unchanged role |
| Posts.ViewPost | controllers/postController.js:24-25 | a listed post shows its id and the stored title, content and creation time; it carries an owner card exactly when the owner still exists, and then the card holds the owner's id, username and email |
| Posts.ListPosts | controllers/postController.js:44-46 | exactly the posts of the given author, or all posts, each once, newest first |
| Posts.GetAllPosts | controllers/postController.js:22-32 | every post exactly once, with its owner populated, newest first |
| Text.Without | controllers/postController.js:40 | removing every `"` leaves none, keeps every other character as often as it occurs, never lengthens the name, and changes nothing when there was none |
| Text.WithoutSplits | controllers/postController.js:40 | removing `"` from a concatenation removes it from each part, so the other characters keep their order |
| Posts.SearchPosts | controllers/postController.js:34-52 | 400 exactly when the username is missing or empty; otherwise 200, with an empty list when no user matches and else exactly the matched user's posts, newest first |
| Posts.CreatePost | controllers/postController.js:4-20 | 400 for a bad body and 500 for a title that trims to nothing, both with the store unchanged; otherwise a post owned by the requester with the trimmed title and the given content under a fresh id |
| Posts.UpdatePost | controllers/postController.js:54-71 | 404, then 403 unless admin or owner, then 500 if the new title trims to nothing; otherwise only the truthy title and content change, owner and creation time stay, and other posts are untouched |
| Posts.DeletePost | controllers/postController.js:73-86 | 404 before 403; an authorized delete removes exactly that post and keeps all comments |
| Posts.Revise | controllers/postController.js:63-64 | a supplied title or content replaces the old one, trimmed by the setter; an absent one is kept; owner and creation time never change |
| PostLaws.ReviseIdempotent | controllers/postController.js:63-64 | applying the same partial update twice equals applying it once |
| PostLaws.AppliedUpdateRepeats | controllers/postController.js:63-65 | repeating a successful update gives the same reply and store |
| PostLaws.UpdatePostIdempotent | controllers/postController.js:54-71 | sending the same update twice has the effect and reply of sending it once |
| PostLaws.CreatedPostIsListed | controllers/postController.js:9-27 | a post created from a valid body with a title that does not trim to nothing appears in the listing under the next id, with the trimmed title and its creator's card |
| PostLaws.CreatedPostIsFound | controllers/postController.js:4-20 | a post just created is found by searching for its creator's username, when no other user has that name up to case, with the trimmed title under the next id |
| PostLaws.RefusedDeleteKeepsPost | controllers/postController.js:75-79 | a delete by a non-owner non-admin gets 403 and the post is still listed |
| Comments.ViewComment | controllers/commentController.js:28-29 | a listed comment shows its id and the stored post, text and creation time; it carries an owner card exactly when it has an owner who still exists, and then the card holds that user's id, username and email |
| Comments.GetComments | controllers/commentController.js:26-36 | exactly the comments of the post, each once, with their owners populated, oldest first |
| Comments.CreateComment | controllers/commentController.js:5-24 | 400 for a bad body before 404 for a missing post; otherwise a comment with the path's post, the requester as owner, the given text and the current time |
| Comments.UpdateComment | controllers/commentController.js:38-58 | 400 for a bad body, then 404, then 400 for a comment of another post, then 403 unless admin or the comment's owner; otherwise only the text changes, and the reply is the update message with the updated comment |
| Comments.DeleteComment | controllers/commentController.js:60-76 | 404, then 400 for a comment of another post, then 403 unless admin or the comment's owner; otherwise exactly that comment is removed |
| CommentLaws.PostOwnerCannotDeleteOthersComment | controllers/commentController.js:67-69 | a plain user who owns the post is refused with 403 when deleting someone else's comment under it |
| CommentLaws.CreatedCommentIsListed | controllers/commentController.js:13-30 | a comment just created is listed under its post with its text and its author's card |
| CommentLaws.CommentsIgnorePosts | controllers/commentController.js:28-30 | the comment listing does not depend on the posts |
| CommentLaws.DeletePostKeepsComments | controllers/postController.js:80-81 | deleting a post leaves the listing of its comments as it was |
| Api.Gated | server.js:92-369 | the routes behind `authMiddleware`: all but register, login, the post listing, the search and the comment listing |
| Api.ServeOpen | server.js:92-258 | the open routes change the store only by a 201 registration |
| Api.ServeGated | server.js:145-391 | the gated routes change the store only on a 200 or 201 answer, and the read-only ones never |
| Api.Handle | server.js:73-391 | on a gated route the gate's 401 or 403 comes first and leaves the store unchanged; an open route never answers 401 or 403; a store change always comes with 200 or 201; every answer keeps the store invariant |
| ApiLaws.OpenRouteRunsItsHandler | server.js:92-338 | an open route skips the gate: register, login and search run their own handlers, and the post and comment listings answer 200 with the store unchanged |
| ApiLaws.SignedRouteRunsItsHandler | server.js:145-391 | a gated route with `"Bearer "` and a token signed for a principal runs that route's own handler on behalf of exactly that principal |

## Left out

- JSON values other than strings in request bodies (numbers, arrays, nested objects): bodies
  are maps from keys to strings.
- Joi's message texts: a schema refusal is modelled as a 400 with the library's message,
  `LibraryText`, whatever the text.
- Joi's two built-in email rules are parameters (`Libs.email`), since they rest on an address
  grammar and a list of top-level domains the model does not spell out. Only the explicit regex
  of validations/schemas.js:12 is modelled as a string predicate.
- Character sets: case mapping is ASCII only, a character is one Dafny `char`, and JavaScript's
  UTF-16 length is not modelled.
- Posts.SearchPosts: the username is compiled into a regular expression without escaping. The
  model compares the name with the stored usernames ignoring ASCII case, which is what the
  regex does only when the name holds no regex metacharacters.
- Users.GetAllUsers: lists the users in ascending id order. `User.find()` without `sort`
  leaves the order to MongoDB, so the program may list them in another order.
- Model.FindUser: returns the matching user with the lowest id. `findOne` returns whichever
  match MongoDB yields first. This matters for the search, whose case-insensitive match can
  fit several users, because the unique index on usernames is case-sensitive.
- MongoDB ObjectId casting: ids are natural numbers, so the 500 a malformed id causes is not
  modelled.
- The catch-all 500 paths for driver failures are not modelled. The two store refusals the
  model can name are modelled: the required validators on save, and the unique index on profile
  update.
- The 500 that server.js:167-170 returns when hashing fails: hashing is a total function here.
- bcrypt salts and cost factors, token signatures and the one-hour token expiry: the salt is a
  parameter, and `sign` and `verify` are opaque functions.
- Concurrency: the race between the uniqueness check and `save` in registration, and between
  the post lookup and the comment insert. Every handler is one atomic step.
- Api.Handle: the reply bodies are not part of its result, only the status and the store. Each
  handler's own contract states its reply, including the lists of Users.GetAllUsers,
  Posts.GetAllPosts and Comments.GetComments.
- The static files, the page route `/`, dotenv, logging and `app.listen`: no logic to model.
- The browser scripts under public/: the button visibility they compute is advisory. The server
  rules are modelled instead.
- models/userModel.js and models/postModel.js are not part of this model. The User and Post
  schemas of server.js:23-38 are used for both copies of the handlers.

=== FILE: access.dfy ===
/**
 * The authorization rules the handlers apply inline: who may change a post, a comment or
 * a profile. Create operations need no rule, since the new record's owner is the requester.
 */
module Access {
  import opened Wrappers
  import opened Model

  predicate IsAdmin(who: Principal) {
    who.role == AdminRole
  }

  /** `req.user.role !== 'admin' && String(post.owner) !== req.user.id` denies. */
  predicate MayChangePost(who: Principal, p: Post) {
    IsAdmin(who) || p.owner == who.id
  }

  /**
   * `req.user.role !== 'admin' && (!comment.owner || comment.owner.toString() !== req.user.id)`
   * denies: the same rule for updating and for deleting a comment.
   */
  predicate MayChangeComment(who: Principal, c: Comment) {
    IsAdmin(who) || c.owner == Some(who.id)
  }

  /** `req.user.id !== req.params.id && req.user.role !== 'admin'` denies. */
  predicate MayEditProfile(who: Principal, target: Id) {
    who.id == target || IsAdmin(who)
  }

  /** A comment without an owner can be changed by an admin and by nobody else. */
  lemma OwnerlessCommentIsAdminOnly(who: Principal, c: Comment)
    requires c.owner.None?
    ensures MayChangeComment(who, c) <==> IsAdmin(who)
  {
  }

  /**
   * Owning the post gives no right over the comments under it: the comment rule looks at
   * the comment's owner and the role only.
   */
  lemma PostOwnershipGrantsNoCommentRights(who: Principal, p: Post, c: Comment)
    requires p.owner == who.id
    requires !IsAdmin(who) && c.owner != Some(who.id)
    ensures MayChangePost(who, p) && !MayChangeComment(who, c)
  {
  }
}

=== FILE: api.dfy ===
/**
 * The HTTP surface of server.js and the route files: fourteen endpoints, the authentication gate in
 * front of the ones that need it, and the status each answer carries.
 */
module Api {
  import opened Wrappers
  import opened Validation
  import opened Model
  import opened Gate
  import opened Text
  import Auth
  import Users
  import Posts
  import Comments

  /** One request per route; `auth` is the `Authorization` header of the gated routes. */
  datatype Request =
    | RegisterReq(body: Body)                                   // POST /api/auth/register
    | LoginReq(body: Body)                                      // POST /api/auth/login
    | ProfileReq(auth: Option<string>)                          // GET /api/auth/profile
    | UpdateUserReq(auth: Option<string>, target: Id, body: Body)  // PUT /api/users/:id
    | ListUsersReq(auth: Option<string>)                        // GET /api/users
    | CreatePostReq(auth: Option<string>, body: Body)           // POST /api/posts
    | ListPostsReq                                              // GET /api/posts
    | SearchReq(username: Option<string>)                       // GET /api/posts/search?username=
    | UpdatePostReq(auth: Option<string>, post: Id, body: Body) // PUT /api/posts/:id
    | DeletePostReq(auth: Option<string>, post: Id)             // DELETE /api/posts/:id
    | CreateCommentReq(auth: Option<string>, post: Id, body: Body)  // POST /api/posts/:id/comments
    | ListCommentsReq(post: Id)                                 // GET /api/posts/:id/comments
    | UpdateCommentReq(auth: Option<string>, post: Id, comment: Id, body: Body)
                                                                // PUT /api/posts/:postId/comments/:commentId
    | DeleteCommentReq(auth: Option<string>, post: Id, comment: Id)
                                                                // DELETE /api/posts/:postId/comments/:commentId

  /** The routes mounted behind `authMiddleware`. */
  predicate Gated(req: Request) {
    !(req.RegisterReq? || req.LoginReq? || req.ListPostsReq? || req.SearchReq? || req.ListCommentsReq?)
  }

  /** The routes whose handler may write to the database. */
  predicate Writes(req: Request) {
    || req.RegisterReq? || req.UpdateUserReq? || req.CreatePostReq? || req.UpdatePostReq?
    || req.DeletePostReq? || req.CreateCommentReq? || req.UpdateCommentReq? || req.DeleteCommentReq?
  }

  /** The status line of an answer, and the database after it. */
  datatype Outcome = Outcome(status: nat, store: Store)

  function Finish<T>(s: Step<T>): Outcome {
    Outcome(s.reply.code, s.store)
  }

  function Answer<T>(st: Store, r: Reply<T>): Outcome {
    Outcome(r.code, st)
  }

  /** The handler behind an open route. */
  function ServeOpen(st: Store, libs: Libs, schemas: Schemas, req: Request, salt: Salt): (r: Outcome)
    requires Valid(st) && !Gated(req)
    ensures Valid(r.store)
    ensures !req.RegisterReq? ==> r.store == st
    ensures r.store != st ==> r.status == 201
  {
    match req
    case RegisterReq(body) => Finish(Auth.Register(st, libs, schemas, body, salt))
    case LoginReq(body) => Answer(st, Auth.Login(st, libs, schemas, body))
    case ListPostsReq => Outcome(200, st)
    case SearchReq(q) => Answer(st, Posts.SearchPosts(st, q))
    case ListCommentsReq(_) => Outcome(200, st)
  }

  /** The handler behind a gated route, called once the gate has let `who` in. */
  function ServeGated(st: Store, libs: Libs, who: Principal, req: Request, now: int, salt: Salt): (r: Outcome)
    requires Valid(st) && Gated(req)
    ensures Valid(r.store)
    ensures !Writes(req) ==> r.store == st
    ensures r.store != st ==> r.status == 200 || r.status == 201
  {
    match req
    case ProfileReq(_) => Answer(st, Auth.GetProfile(st, who))
    case UpdateUserReq(_, target, body) => Finish(Users.UpdateUser(st, libs, who, target, body, salt))
    case ListUsersReq(_) => Outcome(200, st)
    case CreatePostReq(_, body) => Finish(Posts.CreatePost(st, who, body, now))
    case UpdatePostReq(_, id, body) => Finish(Posts.UpdatePost(st, who, id, body))
    case DeletePostReq(_, id) => Finish(Posts.DeletePost(st, who, id))
    case CreateCommentReq(_, id, body) => Finish(Comments.CreateComment(st, who, id, body, now))
    case UpdateCommentReq(_, id, c, body) => Finish(Comments.UpdateComment(st, who, id, c, body))
    case DeleteCommentReq(_, id, c) => Finish(Comments.DeleteComment(st, who, id, c))
  }

  /**
   * One request end to end: the gate answers 401 or 403 on the gated routes before any
   * handler runs, and never on the open ones; every refusal leaves the database as it was.
   * Which handler each route runs is stated by the laws of `ApiLaws`.
   */
  function Handle(st: Store, libs: Libs, schemas: Schemas, req: Request, now: int, salt: Salt): (r: Outcome)
    requires Valid(st)
    ensures Valid(r.store)
    ensures !Writes(req) ==> r.store == st
    ensures r.store != st ==> r.status == 200 || r.status == 201
    ensures Gated(req) && Authenticate(req.auth, libs.verify).Refuse? ==>
      r == Outcome(Authenticate(req.auth, libs.verify).code, st)
    ensures Gated(req) && (req.auth.None? || !StartsWith(req.auth.value, Scheme)) ==> r == Outcome(401, st)
    ensures !Gated(req) ==> r.status != 401 && r.status != 403
  {
    if Gated(req) then
      match Authenticate(req.auth, libs.verify)
      case Refuse(code, _) => Outcome(code, st)
      case Admit(who) => ServeGated(st, libs, who, req, now, salt)
    else
      ServeOpen(st, libs, schemas, req, salt)
  }
}

=== FILE: api_laws.dfy ===
/**
 * End-to-end routing: a request on an open route, or on a gated route with a header that
 * carries a signed token, is answered by that route's own handler.
 */
module ApiLaws {
  import opened Wrappers
  import opened Validation
  import opened Model
  import opened Gate
  import opened Api
  import Auth
  import Users
  import Posts
  import Comments

  /** An open route skips the gate and runs its handler (the two listings always answer 200). */
  lemma OpenRouteRunsItsHandler(st: Store, libs: Libs, schemas: Schemas, req: Request, now: int, salt: Salt)
    requires Valid(st) && !Gated(req)
    ensures var r := Handle(st, libs, schemas, req, now, salt);
      && (req.RegisterReq? ==> r == Finish(Auth.Register(st, libs, schemas, req.body, salt)))
      && (req.LoginReq? ==> r == Answer(st, Auth.Login(st, libs, schemas, req.body)))
      && (req.SearchReq? ==> r == Answer(st, Posts.SearchPosts(st, req.username)))
      && (req.ListPostsReq? || req.ListCommentsReq? ==> r == Outcome(200, st))
  {
    assert Handle(st, libs, schemas, req, now, salt) == ServeOpen(st, libs, schemas, req, salt);
  }

  /**
   * A gated route whose `Authorization` header is `"Bearer "` and a token signed for `p`
   * runs its handler on behalf of exactly `p`.
   */
  lemma SignedRouteRunsItsHandler(st: Store, libs: Libs, schemas: Schemas, p: Principal, req: Request, now: int, salt: Salt)
    requires Valid(st) && Coherent(libs) && Gated(req)
    requires req.auth == Some(Scheme + libs.sign(p))
    ensures var r := Handle(st, libs, schemas, req, now, salt);
      && (req.ProfileReq? ==> r == Answer(st, Auth.GetProfile(st, p)))
      && (req.UpdateUserReq? ==> r == Finish(Users.UpdateUser(st, libs, p, req.target, req.body, salt)))
      && (req.ListUsersReq? ==> r == Outcome(200, st))
      && (req.CreatePostReq? ==> r == Finish(Posts.CreatePost(st, p, req.body, now)))
      && (req.UpdatePostReq? ==> r == Finish(Posts.UpdatePost(st, p, req.post, req.body)))
      && (req.DeletePostReq? ==> r == Finish(Posts.DeletePost(st, p, req.post)))
      && (req.CreateCommentReq? ==> r == Finish(Comments.CreateComment(st, p, req.post, req.body, now)))
      && (req.UpdateCommentReq? ==> r == Finish(Comments.UpdateComment(st, p, req.post, req.comment, req.body)))
      && (req.DeleteCommentReq? ==> r == Finish(Comments.DeleteComment(st, p, req.post, req.comment)))
  {
    SignedTokenAdmits(libs, p);
    assert Handle(st, libs, schemas, req, now, salt) == ServeGated(st, libs, p, req, now, salt);
  }
}

=== FILE: auth.dfy ===
/** Registration, login and the profile of controllers/authController.js and server.js. */
module Auth {
  import opened Wrappers
  import opened Validation
  import opened Model

  /** The body of a 201 reply to registration. */
  datatype Registered = Registered(id: Id, username: string, email: string)

  /** The body of a successful login: the signed token, the role and the user id. */
  datatype Session = Session(token: string, role: Role, id: Id)

  /** Some user already holds the username or the email, as the setters store them. */
  predicate Taken(users: map<Id, User>, username: string, email: string) {
    exists k | k in users :: users[k].username == NormalizeUsername(username) || users[k].email == NormalizeEmail(email)
  }

  /** The user a successful registration stores: the setters applied, the password hashed, role `user`. */
  function Newcomer(libs: Libs, body: Body, salt: Salt): (u: User)
    requires "username" in body && "email" in body && "password" in body
    ensures UserDocOk(u) && u.role == UserRole && u.password == libs.hash(body["password"], salt)
  {
    User(NormalizeUsername(body["username"]), NormalizeEmail(body["email"]), libs.hash(body["password"], salt), UserRole)
  }

  /** Storing a newcomer who takes nobody's name or email under a fresh id keeps the store valid. */
  lemma AdmitKeepsValid(st: Store, u: User)
    requires Valid(st) && UserDocOk(u)
    requires forall k | k in st.users :: st.users[k].username != u.username && st.users[k].email != u.email
    ensures st.nextId !in st.users
    ensures Valid(st.(users := st.users[st.nextId := u], nextId := st.nextId + 1))
  {
  }

  /**
   * `POST /api/auth/register`: 400 with the schema's message for a bad body, 400 when the
   * username or email is taken, 500 when the setters leave the username or email empty (the
   * required validators refuse the save), otherwise a new `user` under a fresh id and 201.
   * The role never comes from the body.
   */
  function Register(st: Store, libs: Libs, schemas: Schemas, body: Body, salt: Salt): (r: Step<Registered>)
    requires Valid(st)
    ensures Valid(r.store)
    ensures !RegisterOk(schemas, body, libs.email) ==> r == Step(Err(400, LibraryText), st)
    ensures RegisterOk(schemas, body, libs.email) && Taken(st.users, body["username"], body["email"]) ==>
      r == Step(Err(400, Says(InUseMsg)), st)
    ensures (&& RegisterOk(schemas, body, libs.email) && !Taken(st.users, body["username"], body["email"])
             && (NormalizeUsername(body["username"]) == "" || NormalizeEmail(body["email"]) == "")) ==>
      r == Step(Err(500, Says(RegisterFailedMsg)), st)
    ensures r.reply.Err? ==> r.store == st
    ensures r.reply.Ok? <==>
      && RegisterOk(schemas, body, libs.email)
      && !Taken(st.users, body["username"], body["email"])
      && NormalizeUsername(body["username"]) != "" && NormalizeEmail(body["email"]) != ""
    ensures r.reply.Ok? ==>
      && var id := r.reply.value.id;
      && r.reply.code == 201 && id == st.nextId && id !in st.users
      && r.store == st.(users := st.users[id := Newcomer(libs, body, salt)], nextId := id + 1)
      && r.store.users[id].role == UserRole
      && r.reply.value == Registered(id, r.store.users[id].username, r.store.users[id].email)
  {
    if !RegisterOk(schemas, body, libs.email) then
      Step(Err(400, LibraryText), st)
    else if FindUser(st, ByNameOrEmail(body["username"], body["email"])).Some? then
      Step(Err(400, Says(InUseMsg)), st)
    else
      assert !Taken(st.users, body["username"], body["email"]);
      var u := Newcomer(libs, body, salt);
      if u.username == "" || u.email == "" then
        Step(Err(500, Says(RegisterFailedMsg)), st)
      else
        AdmitKeepsValid(st, u);
        Step(Ok(201, Registered(st.nextId, u.username, u.email)),
             st.(users := st.users[st.nextId := u], nextId := st.nextId + 1))
  }

  /**
   * `POST /api/auth/login`: 400 with the schema's message for a bad body; the same 400
   * "Invalid email or password." for an unknown email and for a wrong password; otherwise a
   * token signed over the user's id and stored role. The store never changes.
   */
  function Login(st: Store, libs: Libs, schemas: Schemas, body: Body): (r: Reply<Session>)
    requires Valid(st)
    ensures !LoginOk(schemas, body, libs.email) ==> r == Err(400, LibraryText)
    ensures LoginOk(schemas, body, libs.email) && (forall k | k in st.users :: st.users[k].email != NormalizeEmail(body["email"])) ==>
      r == Err(400, Says(BadLoginMsg))
    ensures LoginOk(schemas, body, libs.email) ==>
      forall k | k in st.users && st.users[k].email == NormalizeEmail(body["email"])
        && !libs.compare(body["password"], st.users[k].password) :: r == Err(400, Says(BadLoginMsg))
    ensures r.Err? ==> r == Err(400, LibraryText) || r == Err(400, Says(BadLoginMsg))
    ensures r.Ok? ==>
      && LoginOk(schemas, body, libs.email)
      && r.code == 200 && r.value.id in st.users
      && var u := st.users[r.value.id];
      && u.email == NormalizeEmail(body["email"])
      && libs.compare(body["password"], u.password)
      && r.value == Session(libs.sign(Principal(r.value.id, u.role)), u.role, r.value.id)
    ensures LoginOk(schemas, body, libs.email) ==>
      forall k | k in st.users && st.users[k].email == NormalizeEmail(body["email"]) ::
        (r.Ok? <==> libs.compare(body["password"], st.users[k].password))
  {
    if !LoginOk(schemas, body, libs.email) then Err(400, LibraryText)
    else
      match FindUser(st, ByEmail(body["email"]))
      case None => Err(400, Says(BadLoginMsg))
      case Some(id) =>
        var u := st.users[id];
        if !libs.compare(body["password"], u.password) then Err(400, Says(BadLoginMsg))
        else Ok(200, Session(libs.sign(Principal(id, u.role)), u.role, id))
  }

  /** `GET /api/auth/profile`: the requester's own account without its password, or 404. */
  function GetProfile(st: Store, who: Principal): (r: Reply<Account>)
    ensures who.id !in st.users <==> r == Err(404, Says(UserNotFoundMsg))
    ensures who.id in st.users ==> r == Ok(200, AccountOf(who.id, st.users[who.id]))
    ensures r.Ok? ==> who.id in st.users && r.value.id == who.id && r.value.role == st.users[who.id].role
  {
    if who.id !in st.users then Err(404, Says(UserNotFoundMsg))
    else Ok(200, AccountOf(who.id, st.users[who.id]))
  }
}

=== FILE: auth_laws.dfy ===
/** Properties that relate several calls of the authentication handlers. */
module AuthLaws {
  import opened Wrappers
  import opened Validation
  import opened Model
  import opened Gate
  import opened Auth

  /** The login body a registered user would send: the same email and password. */
  function LoginBodyOf(body: Body): Body
    requires "email" in body && "password" in body
  {
    map["email" := body["email"], "password" := body["password"]]
  }

  /** A register body accepted by either schema is a valid login body. */
  lemma RegisterBodyLogsIn(schemas: Schemas, body: Body, e: EmailRules)
    requires RegisterOk(schemas, body, e)
    ensures LoginOk(schemas, LoginBodyOf(body), e)
  {
    if schemas.FileSchemas? {
      StrongPasswordLogsIn(body, e);
    }
  }

  /**
   * An unknown email and a wrong password get the very same reply, so the reply does not
   * tell which accounts exist.
   */
  lemma LoginFailuresLookAlike(st: Store, libs: Libs, schemas: Schemas, unknown: Body, wrong: Body)
    requires Valid(st)
    requires LoginOk(schemas, unknown, libs.email) && LoginOk(schemas, wrong, libs.email)
    requires forall k | k in st.users :: st.users[k].email != NormalizeEmail(unknown["email"])
    requires exists k | k in st.users ::
      && st.users[k].email == NormalizeEmail(wrong["email"])
      && !libs.compare(wrong["password"], st.users[k].password)
    ensures Login(st, libs, schemas, unknown) == Login(st, libs, schemas, wrong) == Err(400, Says(BadLoginMsg))
  {
    var k :| k in st.users && st.users[k].email == NormalizeEmail(wrong["email"])
      && !libs.compare(wrong["password"], st.users[k].password);
    assert Login(st, libs, schemas, wrong).Err?;
  }

  /** The holder of the email, with a password the hash accepts, logs in as themselves. */
  lemma RightCredentialsLogIn(st: Store, libs: Libs, schemas: Schemas, body: Body, id: Id)
    requires Valid(st) && LoginOk(schemas, body, libs.email)
    requires id in st.users && st.users[id].email == NormalizeEmail(body["email"])
    requires libs.compare(body["password"], st.users[id].password)
    ensures Login(st, libs, schemas, body) == Ok(200, Session(libs.sign(Principal(id, st.users[id].role)), st.users[id].role, id))
  {
    var r := Login(st, libs, schemas, body);
    assert r.Ok?;
    assert st.users[r.value.id].email == st.users[id].email;
  }

  /**
   * When the hash accepts the password it was made from, a user who just registered logs in
   * with the same email and password.
   */
  lemma RegisterThenLogin(st: Store, libs: Libs, schemas: Schemas, body: Body, salt: Salt)
    requires Valid(st)
    requires RegisterOk(schemas, body, libs.email) && !Taken(st.users, body["username"], body["email"])
    requires NormalizeUsername(body["username"]) != "" && NormalizeEmail(body["email"]) != ""
    requires libs.compare(body["password"], libs.hash(body["password"], salt))
    ensures var s := Register(st, libs, schemas, body, salt);
      && s.reply == Ok(201, Registered(st.nextId, NormalizeUsername(body["username"]), NormalizeEmail(body["email"])))
      && Login(s.store, libs, schemas, LoginBodyOf(body))
           == Ok(200, Session(libs.sign(Principal(st.nextId, UserRole)), UserRole, st.nextId))
  {
    var s := Register(st, libs, schemas, body, salt);
    NewcomerLogsIn(s.store, libs, schemas, body, salt, s.reply.value.id);
  }

  /** A stored newcomer's register body, cut down to email and password, logs them in. */
  lemma NewcomerLogsIn(st: Store, libs: Libs, schemas: Schemas, body: Body, salt: Salt, id: Id)
    requires Valid(st) && RegisterOk(schemas, body, libs.email)
    requires id in st.users && st.users[id] == Newcomer(libs, body, salt)
    requires libs.compare(body["password"], libs.hash(body["password"], salt))
    ensures Login(st, libs, schemas, LoginBodyOf(body)) == Ok(200, Session(libs.sign(Principal(id, UserRole)), UserRole, id))
  {
    RegisterBodyLogsIn(schemas, body, libs.email);
    RightCredentialsLogIn(st, libs, schemas, LoginBodyOf(body), id);
  }

  /** The token a successful login hands out opens the authentication gate as that user. */
  lemma LoginTokenOpensGate(st: Store, libs: Libs, schemas: Schemas, body: Body)
    requires Valid(st) && Coherent(libs)
    requires Login(st, libs, schemas, body).Ok?
    ensures var s := Login(st, libs, schemas, body).value;
      Authenticate(Some(Scheme + s.token), libs.verify) == Admit(Principal(s.id, s.role))
  {
    var s := Login(st, libs, schemas, body).value;
    SignedTokenAdmits(libs, Principal(s.id, s.role));
  }
}

=== FILE: comment_laws.dfy ===
/** Properties that relate the comment handlers to each other and to the post handlers. */
module CommentLaws {
  import opened Wrappers
  import opened Model
  import opened Access
  import opened Posts
  import opened Comments
  import Listing

  /**
   * Owning the post gives no right over other people's comments under it: a plain user who
   * wrote the post but not the comment is refused with 403 and nothing changes.
   */
  lemma PostOwnerCannotDeleteOthersComment(st: Store, who: Principal, postId: Id, commentId: Id)
    requires Valid(st) && who.role == UserRole
    requires postId in st.posts && st.posts[postId].owner == who.id
    requires commentId in st.comments && st.comments[commentId].post == postId
    requires st.comments[commentId].owner != Some(who.id)
    ensures DeleteComment(st, who, postId, commentId) == Step(Err(403, Says(DeleteCommentForbiddenMsg)), st)
  {
    PostOwnershipGrantsNoCommentRights(who, st.posts[postId], st.comments[commentId]);
  }

  /** A comment just created is listed under its post, with its text and its author's card. */
  lemma CreatedCommentIsListed(st: Store, who: Principal, postId: Id, body: Validation.Body, now: int)
    requires Valid(st) && who.id in st.users
    requires CreateComment(st, who, postId, body, now).reply.Ok?
    ensures var s := CreateComment(st, who, postId, body, now);
      exists i | 0 <= i < |GetComments(s.store, postId)| ::
        var v := GetComments(s.store, postId)[i];
        && v.id == s.reply.value.id && v.text == body["text"]
        && v.owner == Some(OwnerCard(who.id, st.users[who.id].username, st.users[who.id].email))
  {
    var s := CreateComment(st, who, postId, body, now);
    var id := s.reply.value.id;
    var r := GetComments(s.store, postId);
    assert id in s.store.comments && Under(s.store.comments[id], postId);
    var i :| 0 <= i < |r| && r[i].id == id;
    assert r[i] == ViewComment(s.store, id);
  }

  /** The comment listing reads the comments and the users, never the posts. */
  lemma CommentsIgnorePosts(st: Store, posts: map<Id, Post>, postId: Id)
    requires Valid(st) && Valid(st.(posts := posts))
    ensures GetComments(st.(posts := posts), postId) == GetComments(st, postId)
  {
    var st2 := st.(posts := posts);
    var ids := Listing.IdsWhere(st.comments, c => Under(c, postId), 0, st.nextId);
    var v1 := seq(|ids|, i requires 0 <= i < |ids| => ViewComment(st, ids[i]));
    var v2 := seq(|ids|, i requires 0 <= i < |ids| => ViewComment(st2, ids[i]));
    assert v1 == v2 by {
      forall i | 0 <= i < |ids| ensures v1[i] == v2[i] {
        assert CardOf(st2, st.comments[ids[i]].owner) == CardOf(st, st.comments[ids[i]].owner);
      }
    }
    assert GetComments(st, postId) == Listing.Sort(v1, Age);
    assert GetComments(st2, postId) == Listing.Sort(v2, Age);
  }

  /**
   * Deleting a post does not cascade: its comments stay in the store and are still listed
   * under the deleted post's id.
   */
  lemma DeletePostKeepsComments(st: Store, who: Principal, id: Id)
    requires Valid(st)
    requires id in st.posts && MayChangePost(who, st.posts[id])
    ensures GetComments(DeletePost(st, who, id).store, id) == GetComments(st, id)
  {
    assert DeletePost(st, who, id).store == st.(posts := st.posts - {id});
    CommentsIgnorePosts(st, st.posts - {id}, id);
  }
}

=== FILE: comments.dfy ===
/**
 * The comment handlers of controllers/commentController.js and their inline twins in
 * server.js: create under an existing post, list a post's comments, update and delete.
 */
module Comments {
  import opened Wrappers
  import opened Validation
  import opened Model
  import opened Access
  import Listing

  /** The body of a successful comment update: the message and the updated comment. */
  datatype CommentUpdated = CommentUpdated(message: string, comment: Comment)

  /** A comment as `GET /api/posts/:id/comments` returns it, with its owner populated. */
  function ViewComment(st: Store, id: Id): (v: CommentView)
    requires id in st.comments
    ensures var c := st.comments[id];
      && v.id == id && v.post == c.post && v.text == c.text && v.createdAt == c.createdAt
      && (v.owner.Some? <==> c.owner.Some? && c.owner.value in st.users)
      && (v.owner.Some? ==>
            v.owner.value == OwnerCard(c.owner.value, st.users[c.owner.value].username, st.users[c.owner.value].email))
  {
    var c := st.comments[id];
    CommentView(id, c.post, c.text, CardOf(st, c.owner), c.createdAt)
  }

  /** `Comment.find({ post: postId })` */
  predicate Under(c: Comment, postId: Id) {
    c.post == postId
  }

  /** The key of `sort({ createdAt: 1 })`. */
  function Age(v: CommentView): int {
    v.createdAt
  }

  predicate OldestFirst(r: seq<CommentView>) {
    forall i, j | 0 <= i < j < |r| :: r[i].createdAt <= r[j].createdAt
  }

  /** `r` lists every comment of the post exactly once, as `ViewComment` shows it, and nothing else. */
  ghost predicate ListsComments(st: Store, postId: Id, r: seq<CommentView>) {
    && (forall i | 0 <= i < |r| ::
          r[i].id in st.comments && Under(st.comments[r[i].id], postId) && r[i] == ViewComment(st, r[i].id))
    && (forall k | k in st.comments && Under(st.comments[k], postId) :: exists i | 0 <= i < |r| :: r[i].id == k)
    && (forall i, j | 0 <= i < j < |r| :: r[i].id != r[j].id)
  }

  lemma ListedCommentsFacts(st: Store, postId: Id, ids: seq<Id>, views: seq<CommentView>, r: seq<CommentView>)
    requires Valid(st)
    requires ids == Listing.IdsWhere(st.comments, c => Under(c, postId), 0, st.nextId)
    requires |views| == |ids|
    requires forall i | 0 <= i < |ids| :: ids[i] in st.comments && views[i] == ViewComment(st, ids[i])
    requires multiset(r) == multiset(views)
    ensures ListsComments(st, postId, r)
  {
    Listing.RearrangedViews(ids, views, (v: CommentView) => v.id, r);
    forall k | k in st.comments && Under(st.comments[k], postId)
      ensures exists i | 0 <= i < |r| :: r[i].id == k
    {
      assert k in ids;
      var j :| 0 <= j < |ids| && ids[j] == k;
      var i :| 0 <= i < |r| && r[i] == views[j];
      assert r[i].id == k;
    }
    forall i | 0 <= i < |r|
      ensures r[i].id in st.comments && Under(st.comments[r[i].id], postId) && r[i] == ViewComment(st, r[i].id)
    {
      var j :| 0 <= j < |views| && r[i] == views[j];
      assert ids[j] in ids;
    }
  }

  /**
   * `GET /api/posts/:id/comments`: exactly the comments whose post is `postId`, oldest first.
   * A post that does not exist simply has no comments listed; there is no 404.
   */
  function GetComments(st: Store, postId: Id): (r: seq<CommentView>)
    requires Valid(st)
    ensures ListsComments(st, postId, r)
    ensures OldestFirst(r)
  {
    var ids := Listing.IdsWhere(st.comments, c => Under(c, postId), 0, st.nextId);
    var views := seq(|ids|, i requires 0 <= i < |ids| => ViewComment(st, ids[i]));
    var r := Listing.Sort(views, Age);
    ListedCommentsFacts(st, postId, ids, views, r);
    assert OldestFirst(r) by {
      forall i, j | 0 <= i < j < |r| ensures r[i].createdAt <= r[j].createdAt {
        assert Age(r[i]) <= Age(r[j]);
      }
    }
    r
  }

  /**
   * `POST /api/posts/:id/comments`: the body is checked before the post is looked up; a
   * comment is created only under an existing post, owned by the requester.
   */
  function CreateComment(st: Store, who: Principal, postId: Id, body: Body, now: int): (r: Step<Saved<Comment>>)
    requires Valid(st)
    ensures Valid(r.store)
    ensures !CommentOk(body) ==> r == Step(Err(400, LibraryText), st)
    ensures CommentOk(body) && postId !in st.posts ==> r == Step(Err(404, Says(PostNotFoundMsg)), st)
    ensures r.reply.Ok? <==> CommentOk(body) && postId in st.posts
    ensures r.reply.Ok? ==>
      var saved := r.reply.value;
      && r.reply.code == 201
      && saved.id !in st.comments
      && saved.record.post == postId
      && saved.record.owner == Some(who.id)
      && saved.record.text == body["text"]
      && saved.record.createdAt == now
      && r.store.comments == st.comments[saved.id := saved.record]
      && r.store.users == st.users && r.store.posts == st.posts
  {
    if !CommentOk(body) then
      Step(Err(400, LibraryText), st)
    else if postId !in st.posts then
      Step(Err(404, Says(PostNotFoundMsg)), st)
    else
      var c := Comment(postId, body["text"], Some(who.id), now);
      Step(Ok(201, Saved(st.nextId, c)), st.(comments := st.comments[st.nextId := c], nextId := st.nextId + 1))
  }

  /**
   * `PUT /api/posts/:postId/comments/:commentId`: 400 for a bad body, 404 for an unknown
   * comment, 400 when it sits under another post (whoever asks), 403 unless admin or the
   * comment's owner; then only the text changes.
   */
  function UpdateComment(st: Store, who: Principal, postId: Id, commentId: Id, body: Body): (r: Step<CommentUpdated>)
    requires Valid(st)
    ensures Valid(r.store)
    ensures !CommentOk(body) ==> r == Step(Err(400, LibraryText), st)
    ensures CommentOk(body) && commentId !in st.comments ==> r == Step(Err(404, Says(CommentNotFoundMsg)), st)
    ensures CommentOk(body) && commentId in st.comments && st.comments[commentId].post != postId ==>
      r == Step(Err(400, Says(WrongPostMsg)), st)
    ensures (CommentOk(body) && commentId in st.comments && st.comments[commentId].post == postId
      && !MayChangeComment(who, st.comments[commentId])) ==>
      r == Step(Err(403, Says(UpdateCommentForbiddenMsg)), st)
    ensures r.reply.Ok? <==>
      && CommentOk(body) && commentId in st.comments && st.comments[commentId].post == postId
      && MayChangeComment(who, st.comments[commentId])
    ensures r.reply.Ok? ==>
      && r.reply.code == 200
      && commentId in st.comments && r.store.comments.Keys == st.comments.Keys
      && (forall k | k in st.comments && k != commentId :: r.store.comments[k] == st.comments[k])
      && r.store.users == st.users && r.store.posts == st.posts && r.store.nextId == st.nextId
      && var before, after := st.comments[commentId], r.store.comments[commentId];
      && after.text == body["text"]
      && after.post == before.post && after.owner == before.owner && after.createdAt == before.createdAt
      && r.reply.value == CommentUpdated(CommentUpdatedMsg, after)
  {
    if !CommentOk(body) then
      Step(Err(400, LibraryText), st)
    else if commentId !in st.comments then
      Step(Err(404, Says(CommentNotFoundMsg)), st)
    else
      var c := st.comments[commentId];
      if c.post != postId then
        Step(Err(400, Says(WrongPostMsg)), st)
      else if !MayChangeComment(who, c) then
        Step(Err(403, Says(UpdateCommentForbiddenMsg)), st)
      else
        var c' := c.(text := body["text"]);
        Step(Ok(200, CommentUpdated(CommentUpdatedMsg, c')), st.(comments := st.comments[commentId := c']))
  }

  /**
   * `DELETE /api/posts/:postId/comments/:commentId`: 404, then 400 for a comment under
   * another post, then 403 unless admin or the comment's owner; then exactly that comment goes.
   */
  function DeleteComment(st: Store, who: Principal, postId: Id, commentId: Id): (r: Step<string>)
    requires Valid(st)
    ensures Valid(r.store)
    ensures commentId !in st.comments ==> r == Step(Err(404, Says(CommentNotFoundMsg)), st)
    ensures commentId in st.comments && st.comments[commentId].post != postId ==>
      r == Step(Err(400, Says(WrongPostMsg)), st)
    ensures (commentId in st.comments && st.comments[commentId].post == postId
      && !MayChangeComment(who, st.comments[commentId])) ==>
      r == Step(Err(403, Says(DeleteCommentForbiddenMsg)), st)
    ensures r.reply.Ok? <==>
      commentId in st.comments && st.comments[commentId].post == postId
      && MayChangeComment(who, st.comments[commentId])
    ensures r.reply.Ok? ==>
      && r.reply == Ok(200, CommentDeletedMsg)
      && r.store.comments.Keys == st.comments.Keys - {commentId}
      && (forall k | k in r.store.comments :: r.store.comments[k] == st.comments[k])
      && r.store.posts == st.posts && r.store.users == st.users
  {
    if commentId !in st.comments then
      Step(Err(404, Says(CommentNotFoundMsg)), st)
    else
      var c := st.comments[commentId];
      if c.post != postId then
        Step(Err(400, Says(WrongPostMsg)), st)
      else if !MayChangeComment(who, c) then
        Step(Err(403, Says(DeleteCommentForbiddenMsg)), st)
      else
        Step(Ok(200, CommentDeletedMsg), st.(comments := st.comments - {commentId}))
  }
}

=== FILE: gate.dfy ===
/**
 * The bearer-token gate in front of every privileged route (middlewares/authMiddleware.js and
 * its copy in server.js): 401 unless the `Authorization` header starts with `"Bearer "`,
 * 403 unless the token after it verifies, otherwise the verified payload becomes `req.user`.
 */
module Gate {
  import opened Wrappers
  import opened Text
  import opened Model

  /** `parts.join(sep)` */
  function Join(parts: seq<string>, sep: char): string
    requires |parts| >= 1
  {
    if |parts| == 1 then parts[0] else parts[0] + [sep] + Join(parts[1..], sep)
  }

  /**
   * `s.split(sep)` for a one-character separator: the pieces hold no separator, joining
   * them back gives `s`, and the first piece is everything before the first separator.
   */
  function Split(s: string, sep: char): (r: seq<string>)
    decreases |s|
    ensures |r| >= 1
    ensures forall i | 0 <= i < |r| :: sep !in r[i]
    ensures Join(r, sep) == s
    ensures StartsWith(s, r[0]) && (|r[0]| == |s| || s[|r[0]|] == sep)
  {
    if s == [] then [""]
    else
      var rest := Split(s[1..], sep);
      if s[0] == sep then
        [""] + rest
      else
        assert Join(rest, sep) == s[1..];
        var r := [[s[0]] + rest[0]] + rest[1..];
        assert r[1..] == rest[1..];
        assert Join(r, sep) == s by {
          if |rest| > 1 {
            assert Join(rest, sep) == rest[0] + [sep] + Join(rest[1..], sep);
          }
        }
        r
  }

  /** A leading character other than the separator joins the first piece of the rest. */
  lemma SplitExtendsFirst(s: string, sep: char)
    requires s != [] && s[0] != sep
    ensures var rest := Split(s[1..], sep);
      Split(s, sep) == [[s[0]] + rest[0]] + rest[1..]
  {
  }

  /** A word without the separator, then the separator, splits off as the first piece. */
  lemma {:induction false} SplitAfterWord(w: string, t: string, sep: char)
    requires sep !in w
    ensures Split(w + [sep] + t, sep) == [w] + Split(t, sep)
  {
    var s := w + [sep] + t;
    if w != [] {
      assert s[1..] == w[1..] + [sep] + t;
      SplitAfterWord(w[1..], t, sep);
      SplitExtendsFirst(s, sep);
      assert [w[0]] + w[1..] == w;
    } else {
      assert s[1..] == t;
    }
  }

  const Scheme := "Bearer "

  /**
   * `authHeader.split(' ')[1]` for a header that starts with the scheme: the run of
   * non-space characters right after `"Bearer "`.
   */
  function TokenOf(header: string): (token: string)
    requires StartsWith(header, Scheme)
    ensures ' ' !in token
    ensures StartsWith(header[|Scheme|..], token)
    ensures |Scheme| + |token| == |header| || header[|Scheme| + |token|] == ' '
  {
    var rest := header[|Scheme|..];
    assert header == "Bearer" + [' '] + rest;
    SplitAfterWord("Bearer", rest, ' ');
    Split(header, ' ')[1]
  }

  /** Whether the middleware calls `next()` with `req.user` bound, or answers itself. */
  datatype Verdict = Admit(user: Principal) | Refuse(code: nat, message: string)

  function Authenticate(header: Option<string>, verify: string -> Option<Principal>): (v: Verdict)
    ensures v.Refuse? ==>
      || (v.code == 401 && v.message == NoTokenMsg)
      || (v.code == 403 && v.message == BadTokenMsg)
    ensures v.Refuse? && v.code == 401 <==> header.None? || !StartsWith(header.value, Scheme)
    ensures v.Admit? <==>
      header.Some? && StartsWith(header.value, Scheme) && verify(TokenOf(header.value)).Some?
    ensures v.Admit? ==> v.user == verify(TokenOf(header.value)).value
  {
    if header.None? || !StartsWith(header.value, Scheme) then
      Refuse(401, NoTokenMsg)
    else
      match verify(TokenOf(header.value))
      case None => Refuse(403, BadTokenMsg)
      case Some(payload) => Admit(payload)
  }

  /** A header without the scheme is refused before the token verifier is ever consulted. */
  lemma MalformedHeaderSkipsVerify(header: Option<string>, v1: string -> Option<Principal>, v2: string -> Option<Principal>)
    requires header.None? || !StartsWith(header.value, Scheme)
    ensures Authenticate(header, v1) == Authenticate(header, v2) == Refuse(401, NoTokenMsg)
  {
  }

  /** The scheme is matched case-sensitively: a lower-case `bearer` is refused with 401. */
  lemma SchemeIsCaseSensitive(token: string, verify: string -> Option<Principal>)
    ensures Authenticate(Some("bearer " + token), verify) == Refuse(401, NoTokenMsg)
  {
    assert ("bearer " + token)[..7] != Scheme by {
      assert ("bearer " + token)[0] == 'b';
    }
  }

  /** Presenting a freshly signed token admits exactly the signed payload. */
  lemma SignedTokenAdmits(libs: Libs, p: Principal)
    requires Coherent(libs)
    ensures Authenticate(Some(Scheme + libs.sign(p)), libs.verify) == Admit(p)
  {
    var t := libs.sign(p);
    var h := Scheme + t;
    assert h == "Bearer" + [' '] + t;
    SplitAfterWord("Bearer", t, ' ');
    assert h[|Scheme|..] == t;
    var r := Split(t, ' ');
    assert Join(r, ' ') == t;
    assert ' ' !in t;
  }
}

=== FILE: listing.dfy ===
/**
 * Reading a collection back: the ids of a map in ascending order, the order the model fixes
 * for reads without `sort`, and the `sort({ createdAt: ... })` the list endpoints apply, as an insertion sort that is
 * proved to return a sorted permutation of its input.
 */
module Listing {

  predicate SortedBy<T>(xs: seq<T>, key: T -> int) {
    forall i, j | 0 <= i < j < |xs| :: key(xs[i]) <= key(xs[j])
  }

  predicate Distinct<T(==)>(xs: seq<T>) {
    forall i, j | 0 <= i < j < |xs| :: xs[i] != xs[j]
  }

  function Insert<T(==)>(x: T, xs: seq<T>, key: T -> int): (r: seq<T>)
    requires SortedBy(xs, key)
    ensures SortedBy(r, key)
    ensures multiset(r) == multiset(xs) + multiset{x}
    ensures |r| == |xs| + 1
    ensures r[0] == x || (|xs| > 0 && r[0] == xs[0])
  {
    if xs == [] || key(x) <= key(xs[0]) then
      [x] + xs
    else
      var rest := Insert(x, xs[1..], key);
      assert xs == [xs[0]] + xs[1..];
      [xs[0]] + rest
  }

  /** A sorted rearrangement of `xs`. */
  function Sort<T(==)>(xs: seq<T>, key: T -> int): (r: seq<T>)
    ensures SortedBy(r, key)
    ensures multiset(r) == multiset(xs)
    ensures |r| == |xs|
  {
    if xs == [] then []
    else
      assert xs == [xs[0]] + xs[1..];
      Insert(xs[0], Sort(xs[1..], key), key)
  }

  lemma {:induction false} DistinctCountsOnce<T>(xs: seq<T>, x: T)
    requires Distinct(xs)
    ensures multiset(xs)[x] <= 1
  {
    if xs != [] {
      assert xs == [xs[0]] + xs[1..];
      assert Distinct(xs[1..]) by {
        forall i, j | 0 <= i < j < |xs[1..]|
          ensures xs[1..][i] != xs[1..][j]
        {
          assert xs[1..][i] == xs[i + 1] && xs[1..][j] == xs[j + 1];
        }
      }
      DistinctCountsOnce(xs[1..], x);
      if xs[0] == x {
        assert x !in xs[1..];
      }
    }
  }

  lemma RepeatCountsTwice<T>(ys: seq<T>, i: nat, j: nat)
    requires i < j < |ys| && ys[i] == ys[j]
    ensures multiset(ys)[ys[i]] >= 2
  {
    assert ys == ys[..i] + [ys[i]] + ys[i + 1..j] + [ys[j]] + ys[j + 1..];
  }

  /** A rearrangement of a sequence without repeats has no repeats either. */
  lemma DistinctPermutation<T>(xs: seq<T>, ys: seq<T>)
    requires Distinct(xs) && multiset(xs) == multiset(ys)
    ensures Distinct(ys)
  {
    forall i, j | 0 <= i < j < |ys|
      ensures ys[i] != ys[j]
    {
      DistinctCountsOnce(xs, ys[i]);
      if ys[i] == ys[j] {
        RepeatCountsTwice(ys, i, j);
      }
    }
  }

  /** A rearrangement has the same elements: each of `r` is among `xs` and each of `xs` is in `r`. */
  lemma SameElements<W>(xs: seq<W>, r: seq<W>)
    requires multiset(r) == multiset(xs)
    ensures forall i | 0 <= i < |r| :: r[i] in xs
    ensures forall j | 0 <= j < |xs| :: xs[j] in r
  {
    forall i | 0 <= i < |r| ensures r[i] in xs {
      assert r[i] in multiset(xs);
    }
    forall j | 0 <= j < |xs| ensures xs[j] in r {
      assert xs[j] in multiset(r);
    }
  }

  /** Records whose ids increase are distinct, and so is every rearrangement of them. */
  lemma {:induction false} DistinctByIds<W>(ids: seq<nat>, views: seq<W>, idOf: W -> nat, r: seq<W>)
    requires |views| == |ids|
    requires forall i | 0 <= i < |ids| :: idOf(views[i]) == ids[i]
    requires forall i, j | 0 <= i < j < |ids| :: ids[i] < ids[j]
    requires multiset(r) == multiset(views)
    ensures Distinct(r)
  {
    forall i, j | 0 <= i < j < |views| ensures views[i] != views[j] {
      assert idOf(views[i]) == ids[i] < ids[j] == idOf(views[j]);
    }
    DistinctPermutation(views, r);
  }

  /**
   * What a list endpoint keeps when it sorts the records it read: every element of `r` is one
   * of the `views`, every view is in `r`, and no record id appears twice.
   */
  lemma {:induction false} RearrangedViews<W>(ids: seq<nat>, views: seq<W>, idOf: W -> nat, r: seq<W>)
    requires |views| == |ids|
    requires forall i | 0 <= i < |ids| :: idOf(views[i]) == ids[i]
    requires forall i, j | 0 <= i < j < |ids| :: ids[i] < ids[j]
    requires multiset(r) == multiset(views)
    ensures forall i | 0 <= i < |r| :: r[i] in views
    ensures forall j | 0 <= j < |views| :: views[j] in r
    ensures forall i, j | 0 <= i < j < |r| :: idOf(r[i]) != idOf(r[j])
  {
    SameElements(views, r);
    RearrangedIdsApart(ids, views, idOf, r);
  }

  /** A rearrangement of views read in ascending id order repeats no id. */
  lemma {:induction false} RearrangedIdsApart<W>(ids: seq<nat>, views: seq<W>, idOf: W -> nat, r: seq<W>)
    requires |views| == |ids|
    requires forall i | 0 <= i < |ids| :: idOf(views[i]) == ids[i]
    requires forall i, j | 0 <= i < j < |ids| :: ids[i] < ids[j]
    requires multiset(r) == multiset(views)
    ensures forall i, j | 0 <= i < j < |r| :: idOf(r[i]) != idOf(r[j])
  {
    SameElements(views, r);
    DistinctByIds(ids, views, idOf, r);
    forall i, j | 0 <= i < j < |r| ensures idOf(r[i]) != idOf(r[j]) {
      var a :| 0 <= a < |views| && r[i] == views[a];
      var b :| 0 <= b < |views| && r[j] == views[b];
      ViewIdsApart(ids, views, idOf, a, b);
    }
  }

  /** Two different views of records read in ascending id order carry different ids. */
  lemma ViewIdsApart<W>(ids: seq<nat>, views: seq<W>, idOf: W -> nat, a: nat, b: nat)
    requires |views| == |ids|
    requires forall i | 0 <= i < |ids| :: idOf(views[i]) == ids[i]
    requires forall i, j | 0 <= i < j < |ids| :: ids[i] < ids[j]
    requires a < |views| && b < |views| && views[a] != views[b]
    ensures idOf(views[a]) != idOf(views[b])
  {
    if a < b {
      assert ids[a] < ids[b];
    } else {
      assert ids[b] < ids[a];
    }
  }

  /** The ids in `lo..hi` of the entries of `m` that satisfy `keep`, ascending. */
  function IdsWhere<V>(m: map<nat, V>, keep: V -> bool, lo: nat, hi: nat): (r: seq<nat>)
    decreases hi - lo
    ensures forall k :: k in r <==> k in m && keep(m[k]) && lo <= k < hi
    ensures forall i, j | 0 <= i < j < |r| :: r[i] < r[j]
  {
    if lo >= hi then []
    else
      var rest := IdsWhere(m, keep, lo + 1, hi);
      if lo in m && keep(m[lo]) then
        assert forall j | 0 <= j < |rest| :: rest[j] in rest && lo < rest[j];
        [lo] + rest
      else rest
  }
}

=== FILE: model.dfy ===
/**
 * The records of the service (users, posts, comments), the in-memory store that stands in
 * for MongoDB, the replies a handler gives, and the external libraries (bcrypt, jsonwebtoken,
 * Joi's email rules) as parameters.
 */
module Model {
  import opened Wrappers
  import opened Text
  import Listing
  import Validation

  /** An ObjectId. The store hands them out in increasing order. */
  type Id = nat

  /** `role: { enum: ['user', 'admin'], default: 'user' }` */
  datatype Role = UserRole | AdminRole

  /** The payload `{ id, role }` of a session token, bound to `req.user` by the gate. */
  datatype Principal = Principal(id: Id, role: Role)

  /** A bcrypt hash; never the plaintext. */
  datatype Digest = Digest(value: string)

  /** The output of `bcrypt.genSalt`. */
  type Salt = nat

  datatype User = User(username: string, email: string, password: Digest, role: Role)

  datatype Post = Post(title: string, content: string, owner: Id, createdAt: int)

  /** models/commentModel.js: the post and the text are required, the owner is not. */
  datatype Comment = Comment(post: Id, text: string, owner: Option<Id>, createdAt: int)

  /** The three collections, and the next ObjectId the store will issue. */
  datatype Store = Store(
    users: map<Id, User>,
    posts: map<Id, Post>,
    comments: map<Id, Comment>,
    nextId: Id)

  /**
   * The email setters `lowercase: true, trim: true`, applied to writes and to query filters:
   * the lower-cased email with only surrounding white space cut, and an email already in
   * that form is kept as it is.
   */
  function NormalizeEmail(e: string): (r: string)
    ensures exists a, b :: CutsOnlySpace(Lower(e), a, b) && r == Lower(e)[a..b]
    ensures HasNoUpper(r) && IsTrimmed(r)
    ensures HasNoUpper(e) && IsTrimmed(e) ==> r == e
  {
    LowerHasNoUpper(e);
    TrimKeepsNoUpper(Lower(e));
    NormalEmailKept(e);
    Trim(Lower(e))
  }

  lemma NormalEmailKept(e: string)
    ensures HasNoUpper(e) && IsTrimmed(e) ==> Trim(Lower(e)) == e
  {
    if HasNoUpper(e) && IsTrimmed(e) {
      LowerKeeps(e);
      TrimKeepsTrimmed(e);
    }
  }

  /**
   * The username setter `trim: true`: the username with only surrounding white space cut,
   * and a trimmed username is kept as it is.
   */
  function NormalizeUsername(u: string): (r: string)
    ensures exists a, b :: CutsOnlySpace(u, a, b) && r == u[a..b]
    ensures IsTrimmed(r)
    ensures IsTrimmed(u) ==> r == u
  {
    if IsTrimmed(u) then TrimKeepsTrimmed(u); Trim(u) else Trim(u)
  }

  /** Normalizing a stored email again changes nothing. */
  lemma NormalizeEmailIdempotent(e: string)
    ensures NormalizeEmail(NormalizeEmail(e)) == NormalizeEmail(e)
  {
    var t := NormalizeEmail(e);
    LowerKeeps(t);
    TrimKeepsTrimmed(t);
  }

  /** What the User schema's setters guarantee of every stored user. */
  predicate UserDocOk(u: User) {
    HasNoUpper(u.email) && IsTrimmed(u.email) && IsTrimmed(u.username)
  }

  /** What the Post schema's setter and required validators guarantee of a saved post. */
  predicate PostDocOk(p: Post) {
    p.title != "" && IsTrimmed(p.title) && p.content != ""
  }

  /** The required validator on a comment's text. */
  predicate CommentDocOk(c: Comment) {
    c.text != ""
  }

  /** The unique indexes on `username` and `email`. */
  ghost predicate UniqueAccounts(users: map<Id, User>) {
    forall a, b | a in users && b in users && a != b ::
      users[a].username != users[b].username && users[a].email != users[b].email
  }

  /** Every store the service can reach: issued ids, schema constraints, unique indexes. */
  ghost predicate Valid(st: Store) {
    && (forall k | k in st.users :: k < st.nextId && UserDocOk(st.users[k]))
    && (forall k | k in st.posts :: k < st.nextId && PostDocOk(st.posts[k]))
    && (forall k | k in st.comments :: k < st.nextId && CommentDocOk(st.comments[k]))
    && UniqueAccounts(st.users)
  }

  /** The database the service starts with. */
  function EmptyStore(): (st: Store)
    ensures Valid(st) && st.users == map[] && st.posts == map[] && st.comments == map[]
  {
    Store(map[], map[], map[], 0)
  }

  /** The filters `User.findOne` is called with. */
  datatype UserQuery =
    | ByEmail(email: string)              // `{ email }`, the filter value normalized by the setters
    | ByNameOrEmail(name: string, email: string)  // `{ $or: [{ email }, { username }] }`
    | ByNameIgnoringCase(name: string)    // `{ username: { $regex: /^name$/i } }`

  predicate Fits(u: User, q: UserQuery) {
    match q
    case ByEmail(e) => u.email == NormalizeEmail(e)
    case ByNameOrEmail(n, e) => u.email == NormalizeEmail(e) || u.username == NormalizeUsername(n)
    case ByNameIgnoringCase(n) => SameIgnoringCase(u.username, n)
  }

  /** `User.findOne(filter)`: the first matching user, in the ascending-id order the model fixes. */
  function FindUser(st: Store, q: UserQuery): (r: Option<Id>)
    requires Valid(st)
    ensures r.Some? ==> r.value in st.users && Fits(st.users[r.value], q)
    ensures r.Some? ==> forall k | k in st.users && k < r.value :: !Fits(st.users[k], q)
    ensures r.None? <==> forall k | k in st.users :: !Fits(st.users[k], q)
  {
    var ids := Listing.IdsWhere(st.users, u => Fits(u, q), 0, st.nextId);
    if ids == [] then None
    else
      assert ids[0] in ids;
      assert forall k | k in ids :: ids[0] <= k by {
        forall k | k in ids ensures ids[0] <= k {
          var j :| 0 <= j < |ids| && ids[j] == k;
        }
      }
      Some(ids[0])
  }

  /**
   * The libraries the handlers call and that this model does not look inside:
   * `bcrypt.hash` with a salt from `bcrypt.genSalt`, `bcrypt.compare`, `jwt.sign` and
   * `jwt.verify` under the server's secret (None when it throws), and Joi's two email rules.
   */
  datatype Libs = Libs(
    hash: (string, Salt) -> Digest,
    compare: (string, Digest) -> bool,
    sign: Principal -> string,
    verify: string -> Option<Principal>,
    email: Validation.EmailRules)

  /**
   * What the libraries promise each other: a password matches its own hash, a signed
   * payload verifies to itself, and a token has no space in it (a JWT is three base64url
   * segments joined by dots). Token expiry is not part of this model.
   */
  ghost predicate Coherent(libs: Libs) {
    && (forall pw, salt :: libs.compare(pw, libs.hash(pw, salt)))
    && (forall p :: libs.verify(libs.sign(p)) == Some(p))
    && (forall p :: ' ' !in libs.sign(p))
  }

  /** The `message` of an error reply. */
  datatype Message =
    | Says(text: string)
    | LibraryText  // Joi's first detail message, or a driver error's `err.message`

  datatype Reply<+T> = Ok(code: nat, value: T) | Err(code: nat, message: Message)

  /** The reply a handler sends and the store it leaves behind. */
  datatype Step<+T> = Step(reply: Reply<T>, store: Store)

  /** `res.status(201).json(saved)`: a saved document with its new ObjectId. */
  datatype Saved<+T> = Saved(id: Id, record: T)

  /** `populate('owner', 'username email')`. */
  datatype OwnerCard = OwnerCard(id: Id, username: string, email: string)

  datatype PostView = PostView(id: Id, title: string, content: string, owner: Option<OwnerCard>, createdAt: int)

  datatype CommentView = CommentView(id: Id, post: Id, text: string, owner: Option<OwnerCard>, createdAt: int)

  /** A user with the password left out: `select('username email role')`. */
  datatype Account = Account(id: Id, username: string, email: string, role: Role)

  /** The owner reference as `populate` resolves it: null when absent or dangling. */
  function CardOf(st: Store, owner: Option<Id>): (r: Option<OwnerCard>)
    ensures r.Some? <==> owner.Some? && owner.value in st.users
    ensures r.Some? ==>
      && r.value.id == owner.value
      && r.value.username == st.users[owner.value].username
      && r.value.email == st.users[owner.value].email
  {
    if owner.Some? && owner.value in st.users then
      var u := st.users[owner.value];
      Some(OwnerCard(owner.value, u.username, u.email))
    else None
  }

  function AccountOf(id: Id, u: User): Account {
    Account(id, u.username, u.email, u.role)
  }

  const NoTokenMsg := "Access denied. No token provided."
  const BadTokenMsg := "Invalid token."
  const InUseMsg := "Username or email already in use."
  const RegisterFailedMsg := "Server error during registration."
  const BadLoginMsg := "Invalid email or password."
  const UserNotFoundMsg := "User not found."
  const ProfileForbiddenMsg := "Not authorized to update this profile."
  const CreatePostFailedMsg := "Server error creating post."
  const UsernameRequiredMsg := "Username query parameter is required."
  const PostNotFoundMsg := "Post not found."
  const UpdatePostNotFoundMsg := "Post not found"
  const UpdatePostForbiddenMsg := "Not authorized to update this post."
  const UpdatePostFailedMsg := "An error occurred while updating the post."
  const PostUpdatedMsg := "Post updated successfully."
  const DeletePostForbiddenMsg := "Not authorized to delete this post."
  const PostDeletedMsg := "Post deleted successfully."
  const CommentNotFoundMsg := "Comment not found."
  const WrongPostMsg := "Comment does not belong to this post."
  const UpdateCommentForbiddenMsg := "Not authorized to update this comment."
  const CommentUpdatedMsg := "Comment updated successfully."
  const DeleteCommentForbiddenMsg := "Not authorized to delete this comment."
  const CommentDeletedMsg := "Comment deleted successfully."
}

=== FILE: post_laws.dfy ===
/** Properties of the post handlers that relate several calls. */
module PostLaws {
  import opened Wrappers
  import opened Text
  import opened Validation
  import opened Model
  import opened Access
  import opened Posts

  /** Sending the same update twice has the effect of sending it once. */
  lemma UpdatePostIdempotent(st: Store, who: Principal, id: Id, body: Body)
    requires Valid(st)
    ensures UpdatePost(UpdatePost(st, who, id, body).store, who, id, body) == UpdatePost(st, who, id, body)
  {
    if UpdatePost(st, who, id, body).reply.Ok? {
      AppliedUpdateRepeats(st, who, id, body);
    } else {
      assert UpdatePost(st, who, id, body).store == st;
    }
  }

  /** Revising a post with the body it was just revised with changes nothing more. */
  lemma ReviseIdempotent(p: Post, body: Body)
    ensures Revise(Revise(p, body), body) == Revise(p, body)
  {
    if Supplied(body, "title") {
      TrimIdempotent(body["title"]);
    }
  }

  /**
   * What a successful update did: it found and authorized the post and stored it revised.
   * A step of `AppliedUpdateRepeats`.
   */
  lemma AppliedUpdateShape(st: Store, who: Principal, id: Id, body: Body)
    requires Valid(st)
    requires UpdatePost(st, who, id, body).reply.Ok?
    ensures id in st.posts && MayChangePost(who, st.posts[id])
    ensures Revise(st.posts[id], body).title != ""
    ensures UpdatePost(st, who, id, body)
      == Step(Ok(200, PostUpdatedMsg), st.(posts := st.posts[id := Revise(st.posts[id], body)]))
  {
  }

  lemma AppliedUpdateRepeats(st: Store, who: Principal, id: Id, body: Body)
    requires Valid(st)
    requires UpdatePost(st, who, id, body).reply.Ok?
    ensures UpdatePost(UpdatePost(st, who, id, body).store, who, id, body) == UpdatePost(st, who, id, body)
  {
    AppliedUpdateShape(st, who, id, body);
    var p := Revise(st.posts[id], body);
    var st1 := st.(posts := st.posts[id := p]);
    ReviseIdempotent(st.posts[id], body);
    assert st1.posts[id] == p && MayChangePost(who, p);
    assert st1.(posts := st1.posts[id := p]) == st1;
  }

  /** A newly created post shows up in `GET /api/posts` with its creator as owner. */
  lemma CreatedPostIsListed(st: Store, who: Principal, body: Body, now: int)
    requires Valid(st)
    requires who.id in st.users
    requires PostOk(body) && Trim(body["title"]) != ""
    ensures var r := CreatePost(st, who, body, now);
      exists i | 0 <= i < |GetAllPosts(r.store)| ::
        && GetAllPosts(r.store)[i].id == st.nextId
        && GetAllPosts(r.store)[i].title == Trim(body["title"])
        && GetAllPosts(r.store)[i].owner == Some(OwnerCard(who.id, st.users[who.id].username, st.users[who.id].email))
  {
    var r := CreatePost(st, who, body, now);
    var all := GetAllPosts(r.store);
    var id := r.reply.value.id;
    assert id in r.store.posts;
    var i :| 0 <= i < |all| && all[i].id == id;
    assert all[i] == ViewPost(r.store, id);
  }

  /**
   * A newly created post is found by searching for its creator's username, provided no
   * other user has that name up to case.
   */
  lemma CreatedPostIsFound(st: Store, who: Principal, body: Body, now: int)
    requires Valid(st)
    requires who.id in st.users
    requires PostOk(body) && Trim(body["title"]) != ""
    requires var name := st.users[who.id].username;
      && name != "" && '"' !in name
      && forall k | k in st.users && k != who.id :: !SameIgnoringCase(st.users[k].username, name)
    ensures var r := SearchPosts(CreatePost(st, who, body, now).store, Some(st.users[who.id].username));
      && r.Ok?
      && exists i | 0 <= i < |r.value| :: r.value[i].id == st.nextId && r.value[i].title == Trim(body["title"])
  {
    var name := st.users[who.id].username;
    var after := CreatePost(st, who, body, now).store;
    var id := CreatePost(st, who, body, now).reply.value.id;
    assert Without(name, '"') == name;
    var found := FindUser(after, ByNameIgnoringCase(name));
    assert Fits(after.users[who.id], ByNameIgnoringCase(name));
    assert found == Some(who.id);
    var r := SearchPosts(after, Some(name));
    assert ListsPosts(after, Some(who.id), r.value);
    assert id in after.posts && Wanted(after.posts[id], Some(who.id));
    var i :| 0 <= i < |r.value| && r.value[i].id == id;
    assert r.value[i] == ViewPost(after, id);
  }

  /** A delete refused for lack of rights leaves the post listed. */
  lemma RefusedDeleteKeepsPost(st: Store, who: Principal, id: Id)
    requires Valid(st)
    requires id in st.posts && !IsAdmin(who) && st.posts[id].owner != who.id
    ensures DeletePost(st, who, id).reply == Err(403, Says(DeletePostForbiddenMsg))
    ensures exists i | 0 <= i < |GetAllPosts(DeletePost(st, who, id).store)| ::
      GetAllPosts(DeletePost(st, who, id).store)[i].id == id
  {
    assert DeletePost(st, who, id).store == st;
    var all := GetAllPosts(st);
    assert exists i | 0 <= i < |all| :: all[i].id == id;
  }
}

=== FILE: posts.dfy ===
/**
 * The post handlers of controllers/postController.js and their inline twins in server.js:
 * create, list, search by author, partial update and delete.
 */
module Posts {
  import opened Wrappers
  import opened Text
  import opened Validation
  import opened Model
  import opened Access
  import Listing

  /** A post as the list endpoints return it, with its owner populated. */
  function ViewPost(st: Store, id: Id): (v: PostView)
    requires id in st.posts
    ensures var p := st.posts[id];
      && v.id == id && v.title == p.title && v.content == p.content && v.createdAt == p.createdAt
      && (v.owner.Some? <==> p.owner in st.users)
      && (v.owner.Some? ==> v.owner.value == OwnerCard(p.owner, st.users[p.owner].username, st.users[p.owner].email))
  {
    var p := st.posts[id];
    PostView(id, p.title, p.content, CardOf(st, Some(p.owner)), p.createdAt)
  }

  /** `Post.find()` when `author` is None, `Post.find({ owner: author })` otherwise. */
  predicate Wanted(p: Post, author: Option<Id>) {
    author.None? || p.owner == author.value
  }

  /** The key of `sort({ createdAt: -1 })`. */
  function Newness(v: PostView): int {
    -v.createdAt
  }

  predicate NewestFirst(r: seq<PostView>) {
    forall i, j | 0 <= i < j < |r| :: r[i].createdAt >= r[j].createdAt
  }

  /** `r` lists every wanted post of `st` exactly once, as `ViewPost` shows it, and nothing else. */
  ghost predicate ListsPosts(st: Store, author: Option<Id>, r: seq<PostView>) {
    && (forall i | 0 <= i < |r| ::
          r[i].id in st.posts && Wanted(st.posts[r[i].id], author) && r[i] == ViewPost(st, r[i].id))
    && (forall k | k in st.posts && Wanted(st.posts[k], author) :: exists i | 0 <= i < |r| :: r[i].id == k)
    && (forall i, j | 0 <= i < j < |r| :: r[i].id != r[j].id)
  }

  lemma ListedPostsFacts(st: Store, author: Option<Id>, ids: seq<Id>, views: seq<PostView>, r: seq<PostView>)
    requires Valid(st)
    requires ids == Listing.IdsWhere(st.posts, p => Wanted(p, author), 0, st.nextId)
    requires |views| == |ids|
    requires forall i | 0 <= i < |ids| :: ids[i] in st.posts && views[i] == ViewPost(st, ids[i])
    requires multiset(r) == multiset(views)
    ensures ListsPosts(st, author, r)
  {
    Listing.RearrangedViews(ids, views, (v: PostView) => v.id, r);
    forall k | k in st.posts && Wanted(st.posts[k], author)
      ensures exists i | 0 <= i < |r| :: r[i].id == k
    {
      assert k in ids;
      var j :| 0 <= j < |ids| && ids[j] == k;
      var i :| 0 <= i < |r| && r[i] == views[j];
      assert r[i].id == k;
    }
    forall i | 0 <= i < |r|
      ensures r[i].id in st.posts && Wanted(st.posts[r[i].id], author) && r[i] == ViewPost(st, r[i].id)
    {
      var j :| 0 <= j < |views| && r[i] == views[j];
      assert ids[j] in ids;
    }
  }

  /** The wanted posts, newest first, each once. */
  function ListPosts(st: Store, author: Option<Id>): (r: seq<PostView>)
    requires Valid(st)
    ensures ListsPosts(st, author, r)
    ensures NewestFirst(r)
  {
    var ids := Listing.IdsWhere(st.posts, p => Wanted(p, author), 0, st.nextId);
    var views := seq(|ids|, i requires 0 <= i < |ids| => ViewPost(st, ids[i]));
    var r := Listing.Sort(views, Newness);
    ListedPostsFacts(st, author, ids, views, r);
    assert NewestFirst(r) by {
      forall i, j | 0 <= i < j < |r| ensures r[i].createdAt >= r[j].createdAt {
        assert Newness(r[i]) <= Newness(r[j]);
      }
    }
    r
  }

  /** `GET /api/posts`: every post, newest first, each with its owner's username and email. */
  function GetAllPosts(st: Store): (r: seq<PostView>)
    requires Valid(st)
    ensures forall i | 0 <= i < |r| :: r[i].id in st.posts && r[i] == ViewPost(st, r[i].id)
    ensures forall k | k in st.posts :: exists i | 0 <= i < |r| :: r[i].id == k
    ensures forall i, j | 0 <= i < j < |r| :: r[i].id != r[j].id
    ensures NewestFirst(r)
  {
    ListPosts(st, None)
  }

  /**
   * `GET /api/posts/search?username=`: 400 without a name; otherwise the posts of the first
   * user whose username equals the name (double quotes removed) ignoring case, newest first,
   * and an empty list when there is no such user.
   */
  function SearchPosts(st: Store, query: Option<string>): (r: Reply<seq<PostView>>)
    requires Valid(st)
    ensures query.None? || query.value == "" <==> r == Err(400, Says(UsernameRequiredMsg))
    ensures query.Some? && query.value != "" ==> r.Ok?
    ensures r.Ok? ==> r.code == 200 && NewestFirst(r.value)
    ensures r.Ok? && FindUser(st, ByNameIgnoringCase(Without(query.value, '"'))).None? ==> r.value == []
    ensures r.Ok? && FindUser(st, ByNameIgnoringCase(Without(query.value, '"'))).Some? ==>
      var author := FindUser(st, ByNameIgnoringCase(Without(query.value, '"'))).value;
      && author in st.users && SameIgnoringCase(st.users[author].username, Without(query.value, '"'))
      && ListsPosts(st, Some(author), r.value)
  {
    if query.None? || query.value == "" then
      Err(400, Says(UsernameRequiredMsg))
    else
      match FindUser(st, ByNameIgnoringCase(Without(query.value, '"')))
      case None => Ok(200, [])
      case Some(author) => Ok(200, ListPosts(st, Some(author)))
  }

  /** `POST /api/posts`: a valid body creates one post owned by the requester. */
  function CreatePost(st: Store, who: Principal, body: Body, now: int): (r: Step<Saved<Post>>)
    requires Valid(st)
    ensures Valid(r.store)
    ensures !PostOk(body) ==> r == Step(Err(400, LibraryText), st)
    ensures PostOk(body) && Trim(body["title"]) == "" ==> r == Step(Err(500, Says(CreatePostFailedMsg)), st)
    ensures r.reply.Ok? <==> PostOk(body) && Trim(body["title"]) != ""
    ensures r.reply.Err? ==> r.store == st
    ensures r.reply.Ok? ==>
      var saved := r.reply.value;
      && r.reply.code == 201
      && saved.id !in st.posts
      && saved.record.owner == who.id
      && saved.record.title == Trim(body["title"])
      && saved.record.content == body["content"]
      && saved.record.createdAt == now
      && r.store.posts == st.posts[saved.id := saved.record]
      && r.store.users == st.users && r.store.comments == st.comments
  {
    if !PostOk(body) then
      Step(Err(400, LibraryText), st)
    else
      var p := Post(Trim(body["title"]), body["content"], who.id, now);
      if p.title == "" then
        Step(Err(500, Says(CreatePostFailedMsg)), st)
      else
        Step(Ok(201, Saved(st.nextId, p)), st.(posts := st.posts[st.nextId := p], nextId := st.nextId + 1))
  }

  /** `if (req.body.title) post.title = ...; if (req.body.content) post.content = ...` */
  function Revise(p: Post, body: Body): (r: Post)
    ensures r.owner == p.owner && r.createdAt == p.createdAt
    ensures Supplied(body, "title") ==> r.title == Trim(body["title"])
    ensures !Supplied(body, "title") ==> r.title == p.title
    ensures Supplied(body, "content") ==> r.content == body["content"]
    ensures !Supplied(body, "content") ==> r.content == p.content
  {
    p.(title := if Supplied(body, "title") then Trim(body["title"]) else p.title,
       content := if Supplied(body, "content") then body["content"] else p.content)
  }

  /**
   * `PUT /api/posts/:id`: 404 for an unknown post, then 403 unless admin or owner, then only
   * the non-empty fields of the body overwrite the stored ones; a title that the setter trims
   * to nothing fails the required validator on save, which the handler answers with 500.
   */
  function UpdatePost(st: Store, who: Principal, id: Id, body: Body): (r: Step<string>)
    requires Valid(st)
    ensures Valid(r.store)
    ensures id !in st.posts ==> r == Step(Err(404, Says(UpdatePostNotFoundMsg)), st)
    ensures id in st.posts && !MayChangePost(who, st.posts[id]) ==>
      r == Step(Err(403, Says(UpdatePostForbiddenMsg)), st)
    ensures id in st.posts && MayChangePost(who, st.posts[id]) && Supplied(body, "title") && Trim(body["title"]) == "" ==>
      r == Step(Err(500, Says(UpdatePostFailedMsg)), st)
    ensures r.reply.Ok? <==>
      id in st.posts && MayChangePost(who, st.posts[id])
      && !(Supplied(body, "title") && Trim(body["title"]) == "")
    ensures r.reply.Err? ==> r.store == st
    ensures r.reply.Ok? ==>
      && r.reply == Ok(200, PostUpdatedMsg)
      && id in st.posts && r.store.posts.Keys == st.posts.Keys
      && (forall k | k in st.posts && k != id :: r.store.posts[k] == st.posts[k])
      && r.store.users == st.users && r.store.comments == st.comments && r.store.nextId == st.nextId
      && var before, after := st.posts[id], r.store.posts[id];
      && after.owner == before.owner && after.createdAt == before.createdAt
      && after.title == (if Supplied(body, "title") then Trim(body["title"]) else before.title)
      && after.content == (if Supplied(body, "content") then body["content"] else before.content)
  {
    if id !in st.posts then
      Step(Err(404, Says(UpdatePostNotFoundMsg)), st)
    else if !MayChangePost(who, st.posts[id]) then
      Step(Err(403, Says(UpdatePostForbiddenMsg)), st)
    else
      var p := Revise(st.posts[id], body);
      if p.title == "" then
        Step(Err(500, Says(UpdatePostFailedMsg)), st)
      else
        Step(Ok(200, PostUpdatedMsg), st.(posts := st.posts[id := p]))
  }

  /** `DELETE /api/posts/:id`: 404, then 403 unless admin or owner, then exactly that post goes. */
  function DeletePost(st: Store, who: Principal, id: Id): (r: Step<string>)
    requires Valid(st)
    ensures Valid(r.store)
    ensures id !in st.posts ==> r == Step(Err(404, Says(PostNotFoundMsg)), st)
    ensures id in st.posts && !MayChangePost(who, st.posts[id]) ==>
      r == Step(Err(403, Says(DeletePostForbiddenMsg)), st)
    ensures r.reply.Ok? <==> id in st.posts && MayChangePost(who, st.posts[id])
    ensures r.reply.Ok? ==>
      && r.reply == Ok(200, PostDeletedMsg)
      && r.store.posts.Keys == st.posts.Keys - {id}
      && (forall k | k in r.store.posts :: r.store.posts[k] == st.posts[k])
      && r.store.comments == st.comments && r.store.users == st.users
  {
    if id !in st.posts then
      Step(Err(404, Says(PostNotFoundMsg)), st)
    else if !MayChangePost(who, st.posts[id]) then
      Step(Err(403, Says(DeletePostForbiddenMsg)), st)
    else
      Step(Ok(200, PostDeletedMsg), st.(posts := st.posts - {id}))
  }
}

=== FILE: text.dfy ===
/**
 * Character classes and the string operations of JavaScript that the server relies on:
 * the classes of its regular expressions, `String.prototype.trim`, ASCII lower-casing,
 * `startsWith` and the quote stripping of the search endpoint.
 */
module Text {

  predicate IsLower(c: char) { 'a' <= c <= 'z' }

  predicate IsUpper(c: char) { 'A' <= c <= 'Z' }

  predicate IsLetter(c: char) { IsLower(c) || IsUpper(c) }

  /** `\d` of a JavaScript regular expression. */
  predicate IsDigit(c: char) { '0' <= c <= '9' }

  /** `\w` of a JavaScript regular expression. */
  predicate IsWordChar(c: char) { IsLetter(c) || IsDigit(c) || c == '_' }

  /** The characters that `.` of a JavaScript regular expression does not match. */
  predicate IsLineTerminator(c: char) {
    c == '\n' || c == '\r' || c == '\U{2028}' || c == '\U{2029}'
  }

  /** WhiteSpace and LineTerminator of ECMAScript: what `trim` removes. */
  predicate IsTrimmable(c: char) {
    || IsLineTerminator(c)
    || c == '\t' || c == '\U{B}' || c == '\U{C}' || c == ' '
    || c == '\U{A0}' || c == '\U{FEFF}' || c == '\U{1680}'
    || ('\U{2000}' <= c <= '\U{200A}')
    || c == '\U{202F}' || c == '\U{205F}' || c == '\U{3000}'
  }

  function LowerChar(c: char): (r: char)
    ensures !IsUpper(r)
    ensures IsLetter(c) <==> IsLetter(r)
    ensures !IsUpper(c) ==> r == c
  {
    if IsUpper(c) then (c as int + 32) as char else c
  }

  /** `toLowerCase` restricted to ASCII letters. */
  function Lower(s: string): string {
    seq(|s|, i requires 0 <= i < |s| => LowerChar(s[i]))
  }

  predicate HasNoUpper(s: string) {
    forall i | 0 <= i < |s| :: !IsUpper(s[i])
  }

  lemma LowerHasNoUpper(s: string)
    ensures HasNoUpper(Lower(s))
  {
  }

  lemma LowerKeeps(s: string)
    requires HasNoUpper(s)
    ensures Lower(s) == s
  {
  }

  /** The case-insensitive equality of a regular expression with the `i` flag, on ASCII. */
  predicate SameIgnoringCase(a: string, b: string) {
    Lower(a) == Lower(b)
  }

  function TrimStart(s: string): (r: string)
    ensures |r| <= |s| && r == s[|s| - |r|..]
    ensures r == [] || !IsTrimmable(r[0])
    ensures forall i | 0 <= i < |s| - |r| :: IsTrimmable(s[i])
  {
    if |s| > 0 && IsTrimmable(s[0]) then TrimStart(s[1..]) else s
  }

  function TrimEnd(s: string): (r: string)
    ensures |r| <= |s| && r == s[..|r|]
    ensures r == [] || !IsTrimmable(r[|r| - 1])
    ensures forall i | |r| <= i < |s| :: IsTrimmable(s[i])
  {
    if |s| > 0 && IsTrimmable(s[|s| - 1]) then TrimEnd(s[..|s| - 1]) else s
  }

  /** `s[a..b]` is what is left of `s` once only white space is cut from either end. */
  ghost predicate CutsOnlySpace(s: string, a: int, b: int) {
    && 0 <= a <= b <= |s|
    && (forall i | 0 <= i < a :: IsTrimmable(s[i]))
    && (forall i | b <= i < |s| :: IsTrimmable(s[i]))
  }

  /** Neither end of `s` is white space. */
  predicate IsTrimmed(s: string) {
    s == [] || (!IsTrimmable(s[0]) && !IsTrimmable(s[|s| - 1]))
  }

  /**
   * `String.prototype.trim`: the result is the slice of `s` left once every leading and
   * trailing white-space character is removed.
   */
  function Trim(s: string): (r: string)
    ensures exists a, b :: CutsOnlySpace(s, a, b) && r == s[a..b]
    ensures IsTrimmed(r)
  {
    var t := TrimStart(s);
    var r := TrimEnd(t);
    assert CutsOnlySpace(s, |s| - |t|, |s| - |t| + |r|);
    assert r == s[|s| - |t|..|s| - |t| + |r|];
    r
  }

  lemma TrimIdempotent(s: string)
    ensures Trim(Trim(s)) == Trim(s)
  {
  }

  lemma TrimKeepsTrimmed(s: string)
    requires IsTrimmed(s)
    ensures Trim(s) == s
  {
  }

  lemma TrimKeepsNoUpper(s: string)
    requires HasNoUpper(s)
    ensures HasNoUpper(Trim(s))
  {
  }

  function StartsWith(s: string, prefix: string): bool {
    |prefix| <= |s| && s[..|prefix|] == prefix
  }

  /**
   * `s.replace(/c/g, '')` for a single character `c`: every `c` goes, every other character
   * stays as often as it occurs in `s` (and in its order, by `WithoutSplits`).
   */
  function Without(s: string, c: char): (r: string)
    ensures c !in r
    ensures forall x | x != c :: multiset(r)[x] == multiset(s)[x]
    ensures |r| <= |s|
    ensures c !in s ==> r == s
  {
    if s == [] then []
    else
      assert s == [s[0]] + s[1..];
      if s[0] == c then Without(s[1..], c) else [s[0]] + Without(s[1..], c)
  }

  /** Removing `c` from a concatenation removes it from each part and keeps the order. */
  lemma {:induction false} WithoutSplits(a: string, b: string, c: char)
    ensures Without(a + b, c) == Without(a, c) + Without(b, c)
  {
    if a == [] {
      assert a + b == b;
    } else {
      assert (a + b)[1..] == a[1..] + b;
      WithoutSplits(a[1..], b, c);
    }
  }
}

=== FILE: user_laws.dfy ===
/** Properties that relate a profile update to the profile and login handlers. */
module UserLaws {
  import opened Validation
  import opened Model
  import opened Access
  import opened Users
  import opened Auth
  import opened AuthLaws

  /** After a successful update, the user's own profile shows exactly what the update answered. */
  lemma UpdatedProfileShows(st: Store, libs: Libs, who: Principal, target: Id, body: Body, salt: Salt)
    requires Valid(st) && MayEditProfile(who, target) && target in st.users
    requires !Collides(st.users, target, Amend(st.users[target], libs, body, salt))
    ensures var r := UpdateUser(st, libs, who, target, body, salt);
      && r.reply.Ok?
      && GetProfile(r.store, Principal(target, st.users[target].role)) == Ok(200, r.reply.value)
  {
    var r := UpdateUser(st, libs, who, target, body, salt);
    assert r.store.users[target] == Amend(st.users[target], libs, body, salt);
  }

  /**
   * The profile update hashes any non-empty password, while both login schemas want six
   * characters or more: a shorter password is stored, and logging in with it is always
   * refused by the schema.
   */
  lemma ShortPasswordLocksOut(st: Store, libs: Libs, who: Principal, target: Id, body: Body, salt: Salt, schemas: Schemas, login: Body)
    requires Valid(st) && MayEditProfile(who, target) && target in st.users
    requires !Collides(st.users, target, Amend(st.users[target], libs, body, salt))
    requires Supplied(body, "password") && |body["password"]| < 6
    requires "password" in login && login["password"] == body["password"]
    ensures var r := UpdateUser(st, libs, who, target, body, salt);
      && r.reply.Ok?
      && r.store.users[target].password == libs.hash(body["password"], salt)
      && Login(r.store, libs, schemas, login) == Err(400, LibraryText)
  {
    var r := UpdateUser(st, libs, who, target, body, salt);
    assert r.store.users[target] == Amend(st.users[target], libs, body, salt);
  }

  /**
   * With a coherent hash, a new password set through the profile works for logging in,
   * together with the email the account has after the update, and the role is the old one.
   */
  lemma ChangedPasswordLogsIn(st: Store, libs: Libs, who: Principal, target: Id, body: Body, salt: Salt, schemas: Schemas, login: Body)
    requires Valid(st) && Coherent(libs) && MayEditProfile(who, target) && target in st.users
    requires !Collides(st.users, target, Amend(st.users[target], libs, body, salt))
    requires Supplied(body, "password") && LoginOk(schemas, login, libs.email) && login["password"] == body["password"]
    requires NormalizeEmail(login["email"]) == Amend(st.users[target], libs, body, salt).email
    ensures var role := st.users[target].role;
      Login(UpdateUser(st, libs, who, target, body, salt).store, libs, schemas, login)
        == Ok(200, Session(libs.sign(Principal(target, role)), role, target))
  {
    var after := UpdateUser(st, libs, who, target, body, salt).store;
    assert after.users[target] == Amend(st.users[target], libs, body, salt);
    assert libs.compare(login["password"], after.users[target].password);
    RightCredentialsLogIn(after, libs, schemas, login, target);
  }
}

=== FILE: users.dfy ===
/** The user handlers of controllers/userController.js and their inline twins in server.js. */
module Users {
  import opened Validation
  import opened Model
  import opened Access
  import Listing

  /**
   * The user after `findByIdAndUpdate(id, updateData)`, where `updateData` holds only the
   * truthy username, email and password of the body (the password hashed), each passed
   * through the schema's setters. The role is never part of `updateData`.
   */
  function Amend(u: User, libs: Libs, body: Body, salt: Salt): (r: User)
    ensures r.role == u.role
    ensures r.username == (if Supplied(body, "username") then NormalizeUsername(body["username"]) else u.username)
    ensures r.email == (if Supplied(body, "email") then NormalizeEmail(body["email"]) else u.email)
    ensures Supplied(body, "password") ==> r.password == libs.hash(body["password"], salt)
    ensures !Supplied(body, "password") ==> r.password == u.password
  {
    u.(username := if Supplied(body, "username") then NormalizeUsername(body["username"]) else u.username,
       email := if Supplied(body, "email") then NormalizeEmail(body["email"]) else u.email,
       password := if Supplied(body, "password") then libs.hash(body["password"], salt) else u.password)
  }

  /** Another user already holds the username or the email: the unique index refuses the write. */
  predicate Collides(users: map<Id, User>, id: Id, u: User) {
    exists k | k in users && k != id :: users[k].username == u.username || users[k].email == u.email
  }

  /**
   * `PUT /api/users/:id`: 403 unless the requester is the target or an admin (asked before
   * the user is looked up), 404 for an unknown user, 500 when the unique index refuses,
   * otherwise the supplied fields change and the account is returned without its password.
   */
  function UpdateUser(st: Store, libs: Libs, who: Principal, target: Id, body: Body, salt: Salt): (r: Step<Account>)
    requires Valid(st)
    ensures Valid(r.store)
    ensures !MayEditProfile(who, target) ==> r == Step(Err(403, Says(ProfileForbiddenMsg)), st)
    ensures MayEditProfile(who, target) && target !in st.users ==> r == Step(Err(404, Says(UserNotFoundMsg)), st)
    ensures (&& MayEditProfile(who, target) && target in st.users
             && Collides(st.users, target, Amend(st.users[target], libs, body, salt))) ==>
      r == Step(Err(500, LibraryText), st)
    ensures r.reply.Err? ==> r.store == st
    ensures r.reply.Ok? <==>
      && MayEditProfile(who, target) && target in st.users
      && !Collides(st.users, target, Amend(st.users[target], libs, body, salt))
    ensures r.reply.Ok? ==>
      && target in st.users && r.store.users.Keys == st.users.Keys
      && (forall k | k in st.users && k != target :: r.store.users[k] == st.users[k])
      && r.store.posts == st.posts && r.store.comments == st.comments && r.store.nextId == st.nextId
      && var before, after := st.users[target], r.store.users[target];
      && after.role == before.role
      && after.username == (if Supplied(body, "username") then NormalizeUsername(body["username"]) else before.username)
      && after.email == (if Supplied(body, "email") then NormalizeEmail(body["email"]) else before.email)
      && after.password == (if Supplied(body, "password") then libs.hash(body["password"], salt) else before.password)
      && r.reply == Ok(200, Account(target, after.username, after.email, after.role))
  {
    if !MayEditProfile(who, target) then
      Step(Err(403, Says(ProfileForbiddenMsg)), st)
    else if target !in st.users then
      Step(Err(404, Says(UserNotFoundMsg)), st)
    else
      var u := Amend(st.users[target], libs, body, salt);
      if Collides(st.users, target, u) then
        Step(Err(500, LibraryText), st)
      else
        AmendKeepsDoc(st.users[target], libs, body, salt);
        ReplaceKeepsValid(st, target, u);
        Step(Ok(200, AccountOf(target, u)), st.(users := st.users[target := u]))
  }

  /** The setters leave an amended user well-formed. */
  lemma AmendKeepsDoc(u: User, libs: Libs, body: Body, salt: Salt)
    requires UserDocOk(u)
    ensures UserDocOk(Amend(u, libs, body, salt))
  {
  }

  /** Replacing a user by a well-formed one that collides with nobody keeps the store valid. */
  lemma ReplaceKeepsValid(st: Store, target: Id, u: User)
    requires Valid(st) && target in st.users && UserDocOk(u) && !Collides(st.users, target, u)
    ensures Valid(st.(users := st.users[target := u]))
  {
  }

  /** `GET /api/users`: every account in ascending id order, with the password left out. */
  function GetAllUsers(st: Store): (r: seq<Account>)
    requires Valid(st)
    ensures forall i | 0 <= i < |r| ::
      r[i].id in st.users && r[i] == AccountOf(r[i].id, st.users[r[i].id])
    ensures forall k | k in st.users :: exists i | 0 <= i < |r| :: r[i].id == k
    ensures forall i, j | 0 <= i < j < |r| :: r[i].id < r[j].id
  {
    var ids := Listing.IdsWhere(st.users, (u: User) => true, 0, st.nextId);
    AccountsOf(st, ids)
  }

  /** The accounts of the given users, in the given order. */
  function AccountsOf(st: Store, ids: seq<Id>): (r: seq<Account>)
    requires forall i | 0 <= i < |ids| :: ids[i] in st.users
    ensures |r| == |ids|
    ensures forall i | 0 <= i < |r| :: r[i] == AccountOf(ids[i], st.users[ids[i]])
  {
    seq(|ids|, i requires 0 <= i < |ids| => AccountOf(ids[i], st.users[ids[i]]))
  }
}

=== FILE: validation.dfy ===
/**
 * The Joi schemas that guard request bodies (validations/schemas.js and the inline schemas
 * of server.js), written as predicates on a body, together with executable checks of the
 * regular expressions they use and proofs that each check decides its pattern.
 */
module Validation {
  import opened Text

  /** A JSON request body: the string value of each field that is present. */
  type Body = map<string, string>

  /**
   * A field that JavaScript finds truthy (`if (req.body.title)`), and that
   * `Joi.string().required()` accepts: present and not the empty string.
   */
  predicate Supplied(b: Body, key: string) {
    key in b && b[key] != ""
  }

  /** `Joi.object({...})` refuses every key it does not declare. */
  predicate OnlyKeys(b: Body, keys: set<string>) {
    b.Keys <= keys
  }

  // ---------------------------------------------------------------- usernames

  /** `Joi.string().min(3).max(16).pattern(/^[A-Za-z]+$/)`. */
  predicate UsernameOk(u: string) {
    3 <= |u| <= 16 && forall i | 0 <= i < |u| :: IsLetter(u[i])
  }

  /** Scans a candidate username the way the anchored pattern and the length rules do. */
  method CheckUsername(u: string) returns (ok: bool)
    ensures ok <==> UsernameOk(u)
  {
    if |u| < 3 || |u| > 16 {
      return false;
    }
    var i := 0;
    while i < |u|
      invariant 0 <= i <= |u|
      invariant forall k | 0 <= k < i :: IsLetter(u[k])
    {
      if !IsLetter(u[i]) {
        return false;
      }
      i := i + 1;
    }
    return true;
  }

  // ---------------------------------------------------------------- emails

  /** `[\w.+-]` */
  predicate IsLocalChar(c: char) { IsWordChar(c) || c == '.' || c == '+' || c == '-' }

  /** `[\w-]` */
  predicate IsDomainChar(c: char) { IsWordChar(c) || c == '-' }

  /** `[\w.-]` */
  predicate IsTldChar(c: char) { IsWordChar(c) || c == '.' || c == '-' }

  /** The end of the longest run of characters satisfying `p` that starts at `i`. */
  function Span(s: string, i: nat, p: char -> bool): (j: nat)
    requires i <= |s|
    decreases |s| - i
    ensures i <= j <= |s|
    ensures forall k | i <= k < j :: p(s[k])
    ensures j == |s| || !p(s[j])
  {
    if i < |s| && p(s[i]) then Span(s, i + 1, p) else i
  }

  /** A run of `p` from `i` that stops at `k` is exactly the run `Span` measures. */
  lemma {:induction false} SpanEndsRun(s: string, i: nat, p: char -> bool, k: nat)
    requires i <= k <= |s|
    requires forall m | i <= m < k :: p(s[m])
    requires k == |s| || !p(s[k])
    decreases k - i
    ensures Span(s, i, p) == k
  {
    if i < k {
      SpanEndsRun(s, i + 1, p, k);
    }
  }

  /**
   * `s[..at]`, `@`, `s[at+1..dot]`, `.`, `s[dot+1..]` is the split that
   * `/^[\w.+-]+@[\w-]+\.[\w.-]+$/` asks for: each part non-empty and made only of its class.
   */
  ghost predicate SplitsAsEmail(s: string, at: nat, dot: nat) {
    && 0 < at && at + 1 < dot && dot + 1 < |s|
    && s[at] == '@' && s[dot] == '.'
    && (forall k | 0 <= k < at :: IsLocalChar(s[k]))
    && (forall k | at < k < dot :: IsDomainChar(s[k]))
    && (forall k | dot < k < |s| :: IsTldChar(s[k]))
  }

  /** The language of the email pattern, stated declaratively. */
  ghost predicate EmailShaped(s: string) {
    exists at: nat, dot: nat :: SplitsAsEmail(s, at, dot)
  }

  /**
   * A single left-to-right match of the email pattern: since `@` is outside the local
   * class and `.` outside the domain class, the first `@` and the first `.` after it are
   * the only places the pattern can switch parts.
   */
  predicate EmailPattern(s: string) {
    var at := Span(s, 0, IsLocalChar);
    && 0 < at < |s| && s[at] == '@'
    && var dot := Span(s, at + 1, IsDomainChar);
    && at + 1 < dot < |s| && s[dot] == '.'
    && dot + 1 < |s| && Span(s, dot + 1, IsTldChar) == |s|
  }

  lemma EmailPatternFindsSplit(s: string)
    requires EmailPattern(s)
    ensures EmailShaped(s)
  {
    var at := Span(s, 0, IsLocalChar);
    var dot := Span(s, at + 1, IsDomainChar);
    assert SplitsAsEmail(s, at, dot);
  }

  lemma SplitPassesEmailPattern(s: string, at: nat, dot: nat)
    requires SplitsAsEmail(s, at, dot)
    ensures EmailPattern(s)
  {
    SpanEndsRun(s, 0, IsLocalChar, at);
    SpanEndsRun(s, at + 1, IsDomainChar, dot);
    SpanEndsRun(s, dot + 1, IsTldChar, |s|);
  }

  /** The scan accepts exactly the strings of the pattern's language. */
  lemma EmailPatternDecidesShape(s: string)
    ensures EmailPattern(s) <==> EmailShaped(s)
  {
    if EmailShaped(s) {
      var at: nat, dot: nat :| SplitsAsEmail(s, at, dot);
      SplitPassesEmailPattern(s, at, dot);
    }
    if EmailPattern(s) {
      EmailPatternFindsSplit(s);
    }
  }

  // ---------------------------------------------------------------- passwords

  /** `[!@#$%^&*]` */
  predicate IsSpecial(c: char) { c in "!@#$%^&*" }

  /**
   * `Joi.string().min(6).pattern(/^(?=.*[a-z])(?=.*[A-Z])(?=.*\d)(?=.*[!@#$%^&*]).+$/)`:
   * at least six characters, none a line terminator (which `.` refuses), with a lower-case
   * letter, an upper-case letter, a digit and one of the eight special characters.
   */
  predicate StrongPassword(p: string) {
    && |p| >= 6
    && (forall i | 0 <= i < |p| :: !IsLineTerminator(p[i]))
    && (exists i | 0 <= i < |p| :: IsLower(p[i]))
    && (exists i | 0 <= i < |p| :: IsUpper(p[i]))
    && (exists i | 0 <= i < |p| :: IsDigit(p[i]))
    && (exists i | 0 <= i < |p| :: IsSpecial(p[i]))
  }

  /** One pass over the password that records which lookahead has been satisfied. */
  method CheckPassword(p: string) returns (ok: bool)
    ensures ok <==> StrongPassword(p)
  {
    var lower, upper, digit, special := false, false, false, false;
    var i := 0;
    while i < |p|
      invariant 0 <= i <= |p|
      invariant forall k | 0 <= k < i :: !IsLineTerminator(p[k])
      invariant lower <==> exists k | 0 <= k < i :: IsLower(p[k])
      invariant upper <==> exists k | 0 <= k < i :: IsUpper(p[k])
      invariant digit <==> exists k | 0 <= k < i :: IsDigit(p[k])
      invariant special <==> exists k | 0 <= k < i :: IsSpecial(p[k])
    {
      var c := p[i];
      if IsLineTerminator(c) {
        return false;
      }
      lower := lower || IsLower(c);
      upper := upper || IsUpper(c);
      digit := digit || IsDigit(c);
      special := special || IsSpecial(c);
      i := i + 1;
    }
    ok := |p| >= 6 && lower && upper && digit && special;
  }

  // ---------------------------------------------------------------- schemas

  /** Which copy of the Joi schemas guards the handlers. */
  datatype Schemas =
    | FileSchemas    // validations/schemas.js, used by the controllers
    | InlineSchemas  // the schemas written out in server.js:51-69

  /**
   * Joi's two email rules: `.email()` with its defaults accepts only a top-level domain on
   * IANA's list (server.js:53, 58); `.email({ tlds: { allow: false } })` does not look at the
   * top-level domain (validations/schemas.js:11, 24).
   */
  datatype EmailRules = EmailRules(listedTld: string -> bool, anyTld: string -> bool)

  /** The email rule each copy of the schemas applies. */
  function EmailRule(schemas: Schemas, e: EmailRules): string -> bool {
    match schemas
    case FileSchemas => e.anyTld
    case InlineSchemas => e.listedTld
  }

  /** `registerSchema` of validations/schemas.js; `isEmail` is the Joi email rule it uses. */
  predicate StrictRegisterOk(b: Body, isEmail: string -> bool) {
    && OnlyKeys(b, {"username", "email", "password"})
    && "username" in b && UsernameOk(b["username"])
    && Supplied(b, "email") && isEmail(b["email"]) && EmailPattern(b["email"])
    && "password" in b && StrongPassword(b["password"])
  }

  /** `registerSchema` of server.js: any 3 to 30 characters, an email, six characters. */
  predicate LooseRegisterOk(b: Body, isEmail: string -> bool) {
    && OnlyKeys(b, {"username", "email", "password"})
    && "username" in b && 3 <= |b["username"]| <= 30
    && Supplied(b, "email") && isEmail(b["email"])
    && "password" in b && |b["password"]| >= 6
  }

  predicate RegisterOk(schemas: Schemas, b: Body, e: EmailRules) {
    match schemas
    case FileSchemas => StrictRegisterOk(b, EmailRule(schemas, e))
    case InlineSchemas => LooseRegisterOk(b, EmailRule(schemas, e))
  }

  /**
   * `loginSchema`, the same in both copies but for the email rule: an email and a password
   * of six characters or more, nothing else.
   */
  predicate LoginOk(schemas: Schemas, b: Body, e: EmailRules) {
    && OnlyKeys(b, {"email", "password"})
    && Supplied(b, "email") && EmailRule(schemas, e)(b["email"])
    && "password" in b && |b["password"]| >= 6
  }

  /** `postSchema`: a non-empty title and a non-empty content. */
  predicate PostOk(b: Body) {
    OnlyKeys(b, {"title", "content"}) && Supplied(b, "title") && Supplied(b, "content")
  }

  /** `commentSchema`: a non-empty text. */
  predicate CommentOk(b: Body) {
    OnlyKeys(b, {"text"}) && Supplied(b, "text")
  }

  /**
   * A body the strict schema admits is admitted by the inline schema of server.js too,
   * provided its email also passes the top-level-domain check the inline schema adds.
   */
  lemma StrictRegisterWithinLoose(b: Body, e: EmailRules)
    requires StrictRegisterOk(b, e.anyTld) && e.listedTld(b["email"])
    ensures LooseRegisterOk(b, e.listedTld)
  {
  }

  /** The registration body the two copies disagree on when the domain is not on the list. */
  const UnlistedDomainBody: Body := map["username" := "abc", "email" := "a@b.qqq", "password" := "Aa1!aa"]

  /**
   * The containment needs its hypothesis: with an unlisted top-level domain, a body can pass
   * the strict schema and still be refused by the inline one.
   */
  lemma UnlistedDomainSplitsSchemas(e: EmailRules)
    requires e.anyTld("a@b.qqq") && !e.listedTld("a@b.qqq")
    ensures StrictRegisterOk(UnlistedDomainBody, e.anyTld)
    ensures !LooseRegisterOk(UnlistedDomainBody, e.listedTld)
  {
    var b := UnlistedDomainBody;
    assert UsernameOk(b["username"]) by {
      assert forall i | 0 <= i < 3 :: IsLetter(b["username"][i]);
    }
    assert SplitsAsEmail(b["email"], 1, 3);
    SplitPassesEmailPattern(b["email"], 1, 3);
    var p := b["password"];
    assert IsUpper(p[0]) && IsLower(p[1]) && IsDigit(p[2]) && IsSpecial(p[3]);
    assert forall i | 0 <= i < |p| :: !IsLineTerminator(p[i]);
  }

  /** The inline schema admits more usernames: one with a digit passes only there. */
  lemma LooseRegisterAdmitsMore(e: EmailRules)
    requires e.listedTld("a@b.com")
    ensures var b := map["username" := "ab1", "email" := "a@b.com", "password" := "secret"];
      LooseRegisterOk(b, e.listedTld) && !StrictRegisterOk(b, e.anyTld)
  {
    var b := map["username" := "ab1", "email" := "a@b.com", "password" := "secret"];
    assert !IsLetter(b["username"][2]);
  }

  /** A password good enough to register with is long enough to log in with. */
  lemma StrongPasswordLogsIn(b: Body, e: EmailRules)
    requires StrictRegisterOk(b, e.anyTld)
    ensures LoginOk(FileSchemas, map["email" := b["email"], "password" := b["password"]], e)
  {
  }
}

=== FILE: wrappers.dfy ===
/** Optional values, for a Mongoose reference that may be absent and a lookup that may fail. */
module Wrappers {
  datatype Option<+T> = None | Some(value: T)
}
